=== FILE: README.md ===
# GPT-fromScratch: the exact layer of a character-level GPT

This project models the part of the GPT language model in `train_1.py` and
`transformer/transformer.py` that is exact integer and sequence logic, not
floating-point arithmetic:

- the causal mask of an attention head, and the fact that it stops any
  position from attending to a later one;
- `forward`'s two output shapes, and the row-major flattening of logits
  and targets before the loss;
- the autoregressive `generate` loop, in both files: crop the context to the
  last `block_size` tokens, sample one token per row, append it;
- `collate_fn`, which right-pads the input and target sequences of a batch
  with the pad id 10001;
- the training control: the batch counter of `train_epoch`, the evaluation
  trigger `iter % (TOTAL_ITERATION/2) == 0`, the checkpoint trigger and file
  name, the eval/train mode toggle, and `estimate_loss`'s capped loops over
  one shared loss buffer.

The network is an oracle. `LanguageModel.Net` gives the logit of vocabulary
entry v at position t of a row, and `LanguageModel.LossFn` is the
cross-entropy. `LanguageModel.Sampler` stands for `softmax` followed by
`torch.multinomial`. It receives the last-position logits, the step number and
the row index, and it is only required to return an index into the
distribution it is given. The attention softmax is modelled over exact reals
with an arbitrary positive `exp`.

Modules:

| module | file | models |
|---|---|---|
| `Wrappers` | wrappers.dfy | `Option`, `Result` |
| `Hyper` | hyper.dfy | the module-level constants of train_1.py |
| `Tensor` | tensor.dfy | shapes, row-major `view`, sums |
| `CausalMask` | mask.dfy | `Head`'s `tril` buffer, masking, softmax, aggregation |
| `LanguageModel` | model.dfy | `GPTLanguageModel.forward` / `generate` of train_1.py |
| `Transformer` | transformer.dfy | the parameterised model of transformer/transformer.py |
| `Collate` | collate.dfy | `collate_fn` and `pad_sequence` |
| `Decimal` | decimal.dfy | rendering an int in an f-string |
| `Training` | training.dfy | `estimate_loss`, `train_epoch`, `train` |

`generate` is a method with a loop, and so is the body of each `estimate_loss`
split, which fills an `array<real>`. `train_epoch` and `train` are methods of
the class `Training.Trainer`, whose fields are the model's mode, the batch
counter and a log of events: optimizer steps, evaluations and checkpoint
writes. Each method is proved against a specification function
(`LanguageModel.NextToken`, `Training.Overwrite`, `Training.EstimateOf`,
`Training.EpochEvents`, `Training.RunAsWritten`). Lemmas state what the source
promises about those functions.

Python semantics that are modelled explicitly:

- `row[-0:]` is the whole row, so with a block size of 0 nothing is cropped.
- `iter % (TOTAL_ITERATION/2)` is a float remainder, `x - y*floor(x/y)`.
- `zip(*batch)` fails on an empty batch.
- `logits[:, -1, :]` fails on a time axis of length 0, whatever the batch size.
  Tensors therefore carry their width explicitly: a batch of no rows still has one.
- `torch.multinomial` refuses a distribution over no categories or over more
  than 2^24 of them.
- `F.cross_entropy` rejects a target that is neither a class id below
  vocab_size nor its `ignore_index` −100.

## Model

| member | source | states |
|---|---|---|
| Tensor.Flatten | train_1.py:146-147 | `view(B*T, ...)`: the rows of a (B, T, ...) tensor concatenated in order (defines the view the lemmas below are about) |
| Tensor.FlattenLength | train_1.py:146-147 | `view(B*T, ...)` of a (B, T, ...) tensor has B·T rows |
| Tensor.FlattenAt | train_1.py:146-147 | after `view`, row b·T + t is the element at (b, t) |
| Tensor.Unflatten | train_1.py:146-147 | splitting a B·T sequence gives a (B, T) tensor |
| Tensor.UnflattenAt | train_1.py:146-147 | splitting puts element b·T + t at (b, t) |
| Tensor.UnflattenFlatten | train_1.py:146-147 | the row-major `view` loses nothing: reshaping back gives the original tensor |
| Tensor.FlattenUnflatten | train_1.py:146-147 | reshaping back and flattening again gives the flat sequence back |
| CausalMask.Ones | train_1.py:42 | `torch.ones(n, n)`: an n×n matrix of ones (definition) |
| CausalMask.Tril | train_1.py:42 | `torch.tril(a)`: entries on and below the diagonal kept, the others zero (definition) |
| CausalMask.MaskBuffer | train_1.py:42 | `tril(ones(block_size, block_size))` is a block_size square whose entry (i, j) is nonzero iff j ≤ i |
| CausalMask.Slice | train_1.py:54 | `m[:t, :t]` is a t×t matrix whose entry (i, j) is entry (i, j) of m |
| CausalMask.HeadMask | train_1.py:54 | for any T ≤ block_size, `tril[:T, :T]` is T×T and entry (i, j) is nonzero iff j ≤ i |
| CausalMask.MaskedFill | train_1.py:54 | `masked_fill` keeps the shape of the score matrix |
| CausalMask.Exps | train_1.py:55 | the exponentials of a masked row are 0 exactly at the −inf entries and positive elsewhere |
| CausalMask.Normalized | train_1.py:55 | dividing non-negative entries by their positive sum gives a row that sums to 1 and is zero exactly where the entries are |
| CausalMask.Softmax | train_1.py:55 | a softmax row gives weight 0 exactly to the −inf entries and a positive weight to the rest, and it sums to 1 |
| CausalMask.Weights | train_1.py:53-55 | after masking and softmax, position i gives zero weight exactly to the positions j > i, and every row sums to 1 |
| CausalMask.HeadWeights | train_1.py:53-55 | over a (B, T, T) batch, the broadcast mask gives every element the same zero pattern, j > i |
| CausalMask.WeightedSum | train_1.py:59 | one entry of `wei @ v`: the sum over j of w[j]·v[j][c] (definition) |
| CausalMask.Aggregate | train_1.py:59 | `wei @ v` maps (T, T) and (T, hs) to (T, hs) |
| CausalMask.ZeroWeightsIgnored | train_1.py:59 | values at zero-weight positions do not affect a weighted sum |
| CausalMask.FutureValuesIgnored | train_1.py:54-59 | the head's output at position i is the same for any two value matrices that agree on positions 0..i |
| CausalMask.FutureScoresIgnored | train_1.py:53-55 | row i of the attention weights depends only on scores (i, 0..i) |
| LanguageModel.InVocab | train_1.py:135 | the token-table lookup succeeds iff every id of the (B, T) tensor is in [0, vocab_size) (definition) |
| LanguageModel.TargetsInRange | train_1.py:148 | `cross_entropy` accepts the targets iff each is in [0, vocab_size) or is its ignore_index −100 (definition) |
| LanguageModel.LogitsRow | train_1.py:140 | the head yields vocab_size logits per position |
| LanguageModel.PositionLogits | train_1.py:135-140 | logits have shape (B, T, vocab_size), and (b, t) holds that position's logits |
| LanguageModel.FlattenedLogitsAt | train_1.py:145-147 | after reshaping, row b·T + t of the logits holds the logits of position (b, t) |
| LanguageModel.FlattenedLogits | train_1.py:145-147 | the (B·T, V) logits hold every position at its row-major row |
| LanguageModel.Forward | train_1.py:131-150 | succeeds iff every id is below vocab_size, T ≤ block_size, and the targets have B·T elements each of which is a class id below vocab_size or −100; without targets, loss is None and logits are (B, T, V); with targets, logits are flattened row-major and the loss is the cross-entropy of the flattened logits and targets |
| LanguageModel.Crop | train_1.py:156 | `row[-n:]` is the suffix of length min(len, n), and the whole row when n = 0 |
| LanguageModel.CropBatch | train_1.py:156 | `idx[:, -n:]` crops every row |
| LanguageModel.CroppedContextFits | train_1.py:156 | for block_size > 0, the cropped context has width min(len, block_size) ≤ block_size, so forward on it never runs past the position table and can fail only on an out-of-vocabulary id |
| LanguageModel.LastStep | train_1.py:160 | `logits[:, -1, :]` on a (B, T, V) tensor succeeds iff T > 0, whatever B is, and then picks position T−1 of every row |
| LanguageModel.StepRunsIff | train_1.py:156-164 | forward on the cropped context, the read of its last position and the multinomial draw all succeed iff the rows are nonempty, block_size > 0, the cropped ids are in the vocabulary and the vocabulary has 1..2^24 entries |
| LanguageModel.CanSample | train_1.py:164 | `torch.multinomial` draws one sample without replacement only from 1..2^24 categories (definition) |
| LanguageModel.NextToken | train_1.py:156-164 | the token appended to a row: sampled from the last-position logits of the row cropped to block_size; with a sampler that returns an index into its distribution and a nonempty vocabulary, it is an id below vocab_size |
| LanguageModel.StepCanRun | train_1.py:156-164 | one generate iteration can run iff T > 0, block_size > 0, the cropped ids are in the vocabulary and the vocabulary has 1..2^24 entries (definition; `StepRunsIff` ties it to forward, the last-step read and the draw) |
| LanguageModel.SampledFromLast | train_1.py:160-164 | sampling from the last-position logits of the cropped context gives each row's next token, an id below vocab_size |
| LanguageModel.Step | train_1.py:154-166 | one loop iteration fails exactly when the step cannot run (`StepCanRun`, multinomial's category bounds included); otherwise each row gets one more token, the one sampled from its cropped context, which is below vocab_size |
| LanguageModel.GeneratedGrows | train_1.py:166 | appending each row's next token extends a generation by one step, and the ids of the context window stay in the vocabulary |
| LanguageModel.Generate | train_1.py:152-167 | succeeds iff max_new_tokens = 0 or the first step can run (T > 0, block_size > 0, cropped ids in the vocabulary, 1..2^24 categories), for any B including 0; k = 0 returns the input; rows grow by exactly k and keep the input as prefix; every new token is below vocab_size and is sampled from the last min(len, block_size) tokens before it |
| Transformer.ConstructAsWritten | transformer/transformer.py:22-32 | the constructor sizes the tables with block_size and vocab_size but keeps no `block_size` attribute |
| Transformer.Construct | transformer/transformer.py:22-32 | the corrected constructor also stores `block_size` |
| Transformer.Forward | transformer/transformer.py:42-61 | succeeds iff every id is below vocab_size, T ≤ block_size, and the targets have B·T elements each a class id or −100; without targets, loss is None and position (b, t) of the (B, T, V) logits holds that position's logits; with targets, the logits are viewed as (B·T, V) in row-major order and the loss is the cross-entropy of them and the flattened targets |
| Transformer.Generate | transformer/transformer.py:63-78 | k = 0 returns the input; otherwise a model without `block_size` fails; with it, success iff the first step can run (T > 0 for any B), rows grow by k with the input as prefix, and new tokens are in-vocabulary samples of the cropped context |
| Transformer.AsWrittenGenerateFails | transformer/transformer.py:67 | with the constructor as written, asking for one new token always fails with the missing attribute |
| Transformer.ConstructedGenerateExtends | transformer/transformer.py:63-78 | with block_size stored, one new token from a nonempty in-vocabulary batch over a vocabulary of 1..2^24 ids succeeds and extends every row by one in-vocabulary token |
| Collate.MaxLen | train_1.py:199-200 | the padded length bounds every sequence, is reached by one of them, and is 0 for none |
| Collate.PadTo | train_1.py:199-200 | one padded row: length n, the sequence as prefix, pad after it |
| Collate.PadSequence | train_1.py:199-200 | `pad_sequence` on a nonempty list gives every row the longest length; each row starts with its sequence and is pad after it |
| Collate.Inputs | train_1.py:196 | the first component of each example, in order |
| Collate.Targets | train_1.py:196 | the second component of each example, in order |
| Collate.UnpadPadSequence | train_1.py:199-200 | cutting padded rows back to the original lengths gives the original sequences |
| Collate.CollateFn | train_1.py:194-202 | fails iff the batch is empty; otherwise inputs and targets are each padded with 10001 to their own longest length, each sequence kept as a prefix of its row |
| Collate.CollatedBatchFitsForward | train_1.py:194-202 | a collated batch of equal-length examples no longer than 512, whose input and target ids are in the vocabulary, passes forward with targets: 10001 is a vocabulary id, so padded inputs pass the lookup and padded targets the cross-entropy, and both tensors have one shape |
| Decimal.Show | train_1.py:269 | `f"{n}"` is a nonempty digit string with a leading 0 only for 0, and a single digit iff n < 10 |
| Decimal.ParseShow | train_1.py:269 | the rendering of n reads back as n |
| Decimal.ShowInjective | train_1.py:269 | different counters render differently |
| Training.FloatMod | train_1.py:264 | Python's float `x % y` for y > 0, computed exactly as x − y·floor(x/y), lies in [0, y) |
| Training.EvalDue | train_1.py:264 | the trigger `iter % (TOTAL_ITERATION/2) == 0` with true division (definition; `EvalDueIff` characterises it) |
| Training.EvalRemainder | train_1.py:264 | the float remainder `iter % (TOTAL_ITERATION/2)` equals ((2·iter) mod TOTAL_ITERATION)/2 |
| Training.EvalDueIff | train_1.py:264 | evaluation fires iff 2·iter is a multiple of TOTAL_ITERATION |
| Training.EvalFiresAtHalfAndEnd | train_1.py:264 | within an epoch, evaluation fires after the last batch and, when TOTAL_ITERATION is even, after the middle batch, and after no other |
| Training.CheckpointPath | train_1.py:269 | `./checkpoints/chkpt_{iter+1}.pkl`: the fixed prefix and suffix around a digit string that reads back as iter+1 |
| Training.CheckpointPathInjective | train_1.py:269 | different iterations name different checkpoint files |
| Training.Capped | train_1.py:237-239 | a loop that stops when k = eval_iters reads the first min(n, eval_iters) batches |
| Training.Overwrite | train_1.py:241 | slots below the number read hold the new losses and the others keep their old value |
| Training.AfterTrain | train_1.py:220-242 | the shared buffer after the train loop: slot k holds the k-th train loss if one was read, else 0 |
| Training.AfterVal | train_1.py:223-231 | the buffer after the val loop on top: slot k holds the k-th val loss, else what the train loop left |
| Training.EstimateOf | train_1.py:214-247 | what `estimate_loss` returns: the mean of all eval_iters slots after each loop (definition; the lemmas below state what it averages) |
| Training.TrainEstimate | train_1.py:236-244 | the train mean is the sum of the losses read divided by eval_iters: unread slots count as zeros |
| Training.ValEstimateReusesBuffer | train_1.py:223-234 | the val mean averages the val losses together with whatever the train loop left in the slots the val loop did not reach |
| Training.ValEstimateWithShortVal | train_1.py:220-244 | with fewer val batches than eval_iters, the val mean includes the train losses of the later slots |
| Training.EstimateReadsAtMostCap | train_1.py:226-239 | batches after the first eval_iters of either loader do not affect the estimate |
| Training.FillLosses | train_1.py:237-242 | the loop overwrites the buffer with the first min(n, eval_iters) losses and leaves the rest unchanged |
| Training.Trainer.constructor | train_1.py:285-286 | a new model is in training mode with an empty log |
| Training.Trainer.EstimateLoss | train_1.py:214-247 | returns the two buffer means of the losses the model yields in eval mode, puts the model back in train mode, and leaves the counter and log unchanged (every evaluation batch assumed to pass forward) |
| Training.Trainer.RunBatch | train_1.py:258-271 | one batch increments the counter and logs the step, an evaluation when the trigger fires and a checkpoint with the iter+1 name when iter is a multiple of checkpoint_steps (the batch assumed to pass forward) |
| Training.Trainer.TrainEpoch | train_1.py:250-271 | the counter starts at 0 in epoch 0 and at the argument otherwise, rises by one per batch, and the log grows by exactly the epoch's events (no batch rejected by forward) |
| Training.BatchEvents | train_1.py:258-271 | one batch records its step, then an evaluation in eval mode when the trigger fires, then a checkpoint when iter is a multiple of checkpoint_steps (definition) |
| Training.EpochEvents | train_1.py:250-271 | an epoch's events: those of its batches with counter start+1..start+n, in order (definition) |
| Training.EpochSteppedIff | train_1.py:262 | an epoch records an optimizer step at each counter value start+1..start+TOTAL_ITERATION and at no other |
| Training.EpochEvaluatedIff | train_1.py:264-265 | an epoch evaluates exactly at its counter values where the trigger fires, and records that moment's estimate, taken in eval mode |
| Training.EpochSavedIff | train_1.py:268-269 | an epoch checkpoints exactly at its counter values that are multiples of checkpoint_steps, to `chkpt_{iter+1}.pkl` |
| Training.EpochEventsWithin | train_1.py:252-262 | every event of an epoch carries a counter value of that epoch |
| Training.EpochSavesIncreasing | train_1.py:262-269 | the checkpoints of an epoch come in increasing counter order |
| Training.FirstCheckpointInEpoch | train_1.py:252-269 | as written, every epoch of at least checkpoint_steps batches writes the checkpoint of iteration checkpoint_steps |
| Training.Train1Schedule | train_1.py:206-209 | TOTAL_ITERATION is the number of examples divided by batch_size 8, rounded up: enough batches for every example, and no empty last one |
| Training.Train1CheckpointsAsWritten | train_1.py:274-281 | as written, with at most 39992 training examples (under 5000 batches) no checkpoint is written in 200 epochs, and with more, some checkpoint file is written twice |
| Training.RunAsWritten | train_1.py:274-281 | the log of `train` as written: every epoch's events with the counter restarted at 0 (definition) |
| Training.RunCarried | train_1.py:250-252 | the log of `train` with the counter carried, as `0 if epoch==0 else iter` intends: epoch e starts at e·TOTAL_ITERATION (definition) |
| Training.Trainer.Train | train_1.py:274-281 | 200 epochs, each started with iter = 0, produce the as-written run log (no batch rejected by forward) |
| Training.AsWrittenNoCheckpointWhenEpochShort | train_1.py:274-281 | as written, with fewer batches per epoch than checkpoint_steps, no checkpoint is ever written |
| Training.AsWrittenRepeatsCheckpoint | train_1.py:274-281 | as written, with at least checkpoint_steps batches per epoch, two epochs write the same checkpoint file |
| Training.Trainer.TrainCarried | train_1.py:274-281 | with the counter carried across epochs, the run log is the carried one and the counter ends at 200·TOTAL_ITERATION (no batch rejected by forward) |
| Training.CarriedSavesIff | train_1.py:268-269 | with the counter carried, checkpoints are written exactly at the positive multiples of checkpoint_steps up to the last batch |
| Training.CarriedSavesIncreasing | train_1.py:262-269 | with the counter carried, the checkpoints of a run come in increasing order |
| Training.CarriedPathsDistinct | train_1.py:268-269 | with the counter carried, no two checkpoints of a run share a file |

## Left out

- Numerics: embeddings, linear layers, LayerNorm, ReLU, dropout, the
  cross-entropy value, back-propagation and AdamW are oracles or are left
  out. Floating-point rounding is not modelled; scores, weights and losses
  are exact reals.
- Weight initialisation (`_init_weights`) is random floating-point work.
- Randomness: `torch.multinomial` is the `Sampler` parameter. DataLoader
  shuffling and `train_test_split` are behind the `Evaluator` parameter.
  That parameter gives the per-batch losses each loader yields at a given
  evaluation with the model in a given mode, since dropout makes the losses
  depend on the mode.
- I/O: CSV and JSON loading, the tokenizer, tqdm, prints and the `pickle`
  write. The model records only which checkpoint is written and its file name.
- `torch.set_num_threads` and the commented-out multiprocessing.
- `Head`'s dropout on the weights is left out, so the zero pattern is that of
  evaluation mode.
- `MultiHeadAttention`, `FeedFoward` and `Block` are numeric layers inside
  the `Net` oracle. The `.head` module that transformer/transformer.py imports
  is not part of this model.
- transformer/transformer.py:47 reads a module-level `device` that exists only
  under `__main__`. Here the position lookup is assumed to find it.
- transformer/transformer.py:80-107 is script setup and is not modelled.
- CausalMask.Softmax: a row with no finite score would produce NaN in
  floating point. Its requires excludes that case, which never arises
  because the diagonal is always kept.
- Training.Trainer.EstimateLoss: requires eval_iters > 0. With 0, torch
  takes the mean of an empty tensor and gets NaN.
- Training.Schedule: requires checkpoint_steps > 0. With 0, Python raises
  ZeroDivisionError at the first batch.
- Training.EvalDue: the float remainder is computed exactly. For counters
  beyond 2^53, Python's float division would round.
- The loss of each training batch and the `losses` dict of `train_epoch` are
  not recorded. Only the counter, the mode and the log are state here.
- `CustomDataset`, `RegexTokenizer` and `Dataset` are not part of this model.
- Training.Trainer.RunBatch: assumes the batch passes `forward`. In the
  source, `model(input_batch, target_batch)` raises on a batch that forward
  rejects (a width above block_size, an id outside the vocabulary, or inputs
  and targets padded to different widths), and the run stops there. The
  lengths and ids of the examples are fixed by `CustomDataset`, which is not
  part of this model. `Collate.CollatedBatchFitsForward` states when a
  collated batch does pass forward.
- Training.Trainer.EstimateLoss: assumes every evaluation batch passes
  `forward` likewise. Its losses come from the `Evaluator` parameter, and a
  rejected batch, which would raise in the source, is not modelled.
- Training.Trainer.TrainEpoch: inherits RunBatch's assumption. The log is
  the full epoch's events, where the source would stop at the first batch
  forward rejects.
- Training.Trainer.Train: inherits RunBatch's assumption. It gives the full
  200-epoch log for any data, where the source would stop at the first
  rejected batch.
- Training.Trainer.TrainCarried: inherits RunBatch's assumption, as Train
  does.

## Findings

| source | as written | input that shows it | evidently intended | confidence | as-written member | corrected member |
|---|---|---|---|---|---|---|
| transformer/transformer.py:22-32 | `__init__` never assigns `self.block_size`, but `generate` reads it at line 67 | any batch with max_new_tokens = 1 raises AttributeError | store `self.block_size = block_size` so generation crops to the position table | high, not executed | Transformer.AsWrittenGenerateFails | Transformer.ConstructedGenerateExtends |
| train_1.py:274-281 | `train` passes `iter = 0` to every epoch and never updates it, so the counter restarts each epoch | with 5000 or more batches per epoch (more than 39992 training examples), the first two epochs both write `chkpt_5001.pkl`; with fewer than 5000, no checkpoint is ever written | carry the counter from epoch to epoch, so checkpoints fall at every multiple of checkpoint_steps and never share a file | medium, not executed | Training.AsWrittenRepeatsCheckpoint | Training.CarriedPathsDistinct |

=== FILE: collate.dfy ===
/** `collate_fn` of train_1.py: a batch of (input ids, target ids) examples
    becomes two batch-first tensors, each right-padded with the pad id to the
    longest sequence of its own side. */
module Collate {
  import opened Wrappers
  import opened Tensor
  import Hyper
  import LM = LanguageModel

  datatype Example = Example(input: seq<int>, target: seq<int>)

  /** `zip(*batch)` cannot unpack an empty batch. */
  datatype Error = EmptyBatch

  /** Length of the longest sequence (0 for none). */
  function MaxLen(seqs: seq<seq<int>>): (n: nat)
    ensures forall i :: 0 <= i < |seqs| ==> |seqs[i]| <= n
    ensures |seqs| > 0 ==> exists i :: 0 <= i < |seqs| && |seqs[i]| == n
    ensures |seqs| == 0 ==> n == 0
  {
    if |seqs| == 0 then 0
    else
      var rest := MaxLen(seqs[1..]);
      if |seqs[0]| >= rest then |seqs[0]|
      else
        assert exists i :: 1 <= i < |seqs| && |seqs[i]| == rest by {
          var k :| 0 <= k < |seqs[1..]| && |seqs[1..][k]| == rest;
          assert |seqs[k + 1]| == rest;
        }
        rest
  }

  /** `s` right-padded with `pad` to length n. */
  function PadTo(s: seq<int>, n: nat, pad: int): (r: seq<int>)
    requires |s| <= n
    ensures |r| == n && r[..|s|] == s
    ensures forall j :: |s| <= j < n ==> r[j] == pad
  {
    s + seq(n - |s|, _ => pad)
  }

  /** `pad_sequence(seqs, batch_first=True, padding_value=pad)`: every row has
      the length of the longest sequence, starts with its own sequence and is
      `pad` after it. torch raises on an empty list of sequences. */
  function PadSequence(seqs: seq<seq<int>>, pad: int): (r: seq<seq<int>>)
    requires |seqs| > 0
    ensures |r| == |seqs| && Rect(r, MaxLen(seqs))
    ensures forall i :: 0 <= i < |seqs| ==>
      && r[i][..|seqs[i]|] == seqs[i]
      && forall j :: |seqs[i]| <= j < MaxLen(seqs) ==> r[i][j] == pad
  {
    var n := MaxLen(seqs);
    seq(|seqs|, i requires 0 <= i < |seqs| => PadTo(seqs[i], n, pad))
  }

  function Lengths(seqs: seq<seq<int>>): (ls: seq<nat>)
    ensures |ls| == |seqs| && forall i :: 0 <= i < |seqs| ==> ls[i] == |seqs[i]|
  {
    seq(|seqs|, i requires 0 <= i < |seqs| => |seqs[i]|)
  }

  /** Cut each padded row back to its original length. */
  function Unpad(rows: seq<seq<int>>, ls: seq<nat>): seq<seq<int>>
    requires |ls| == |rows| && forall i :: 0 <= i < |rows| ==> ls[i] <= |rows[i]|
  {
    seq(|rows|, i requires 0 <= i < |rows| => rows[i][..ls[i]])
  }

  /** Padding loses nothing: cutting the rows back to the original lengths
      gives the original sequences. */
  lemma {:induction false} UnpadPadSequence(seqs: seq<seq<int>>, pad: int)
    requires |seqs| > 0
    ensures Unpad(PadSequence(seqs, pad), Lengths(seqs)) == seqs
  {
  }

  function Inputs(batch: seq<Example>): (xs: seq<seq<int>>)
    ensures |xs| == |batch| && forall i :: 0 <= i < |batch| ==> xs[i] == batch[i].input
  {
    seq(|batch|, i requires 0 <= i < |batch| => batch[i].input)
  }

  function Targets(batch: seq<Example>): (ys: seq<seq<int>>)
    ensures |ys| == |batch| && forall i :: 0 <= i < |batch| ==> ys[i] == batch[i].target
  {
    seq(|batch|, i requires 0 <= i < |batch| => batch[i].target)
  }

  /** `collate_fn(batch)`: fails on an empty batch; otherwise the inputs and
      the targets are each padded with the pad id 10001 to their own longest
      sequence, every original sequence kept as a prefix of its row. */
  function CollateFn(batch: seq<Example>): (r: Result<(seq<seq<int>>, seq<seq<int>>), Error>)
    ensures r.Err? <==> |batch| == 0
    ensures r.Ok? ==>
      && |r.value.0| == |batch| && Rect(r.value.0, MaxLen(Inputs(batch)))
      && |r.value.1| == |batch| && Rect(r.value.1, MaxLen(Targets(batch)))
      && forall i :: 0 <= i < |batch| ==>
           && r.value.0[i][..|batch[i].input|] == batch[i].input
           && r.value.1[i][..|batch[i].target|] == batch[i].target
           && (forall j :: |batch[i].input| <= j < |r.value.0[i]| ==> r.value.0[i][j] == Hyper.PadId)
           && (forall j :: |batch[i].target| <= j < |r.value.1[i]| ==> r.value.1[i][j] == Hyper.PadId)
  {
    if |batch| == 0 then Err(EmptyBatch)
    else Ok((PadSequence(Inputs(batch), Hyper.PadId), PadSequence(Targets(batch), Hyper.PadId)))
  }

  /** A collated batch of equal-length examples no longer than the block
      size, with input and target ids in the vocabulary, goes through
      train_1's forward with targets: the pad id is itself a vocabulary id, so
      padding neither breaks the lookup nor the cross-entropy, and the two
      padded tensors have one shape. */
  lemma {:induction false} CollatedBatchFitsForward(batch: seq<Example>, logit: LM.Net, crossEntropy: LM.LossFn)
    requires |batch| > 0
    requires forall i :: 0 <= i < |batch| ==> |batch[i].input| == |batch[i].target| <= Hyper.BlockSize
    requires forall i, j :: 0 <= i < |batch| && 0 <= j < |batch[i].input| ==> 0 <= batch[i].input[j] < Hyper.VocabSize
    requires forall i, j :: 0 <= i < |batch| && 0 <= j < |batch[i].target| ==> 0 <= batch[i].target[j] < Hyper.VocabSize
    ensures CollateFn(batch).Ok?
    ensures var (x, y) := CollateFn(batch).value;
      && IsMatrix(x) && IsMatrix(y)
      && LM.Forward(LM.Train1Model(logit, crossEntropy), x, Width(x), Some(y)).Ok?
  {
    var x := PadSequence(Inputs(batch), Hyper.PadId);
    var y := PadSequence(Targets(batch), Hyper.PadId);
    assert CollateFn(batch).value == (x, y);
    var n := MaxLen(Inputs(batch));
    SameMaxLen(batch);
    assert Width(x) == n && Width(y) == n && Numel(y) == |x| * n;
    assert n <= Hyper.BlockSize by {
      var k :| 0 <= k < |batch| && |Inputs(batch)[k]| == n;
    }
    var m := LM.Train1Model(logit, crossEntropy);
    PaddedInRange(Inputs(batch), Hyper.PadId, m.vocabSize);
    PaddedInRange(Targets(batch), Hyper.PadId, m.vocabSize);
    assert LM.InVocab(m, x);
    assert LM.TargetsInRange(m, y);
  }

  /** Examples whose input and target have one length pad both sides to one
      length. */
  lemma {:induction false} SameMaxLen(batch: seq<Example>)
    requires |batch| > 0
    requires forall i :: 0 <= i < |batch| ==> |batch[i].input| == |batch[i].target|
    ensures MaxLen(Inputs(batch)) == MaxLen(Targets(batch))
  {
    var n := MaxLen(Inputs(batch));
    var k :| 0 <= k < |batch| && |Inputs(batch)[k]| == n;
    var k' :| 0 <= k' < |batch| && |Targets(batch)[k']| == MaxLen(Targets(batch));
    assert |Targets(batch)[k]| <= MaxLen(Targets(batch));
    assert |Inputs(batch)[k']| <= n;
  }

  /** Padding ids in [0, v) with a pad in [0, v) keeps every id in [0, v). */
  lemma {:induction false} PaddedInRange(seqs: seq<seq<int>>, pad: int, v: int)
    requires |seqs| > 0
    requires 0 <= pad < v
    requires forall i, j :: 0 <= i < |seqs| && 0 <= j < |seqs[i]| ==> 0 <= seqs[i][j] < v
    ensures var r := PadSequence(seqs, pad);
      forall b, t :: 0 <= b < |r| && 0 <= t < |r[b]| ==> 0 <= r[b][t] < v
  {
    var r := PadSequence(seqs, pad);
    forall b, t | 0 <= b < |r| && 0 <= t < |r[b]|
      ensures 0 <= r[b][t] < v
    {
      if t < |seqs[b]| {
        assert r[b][t] == r[b][..|seqs[b]|][t];
      }
    }
  }
}

=== FILE: decimal.dfy ===
/** Decimal rendering of a non-negative integer, as an f-string renders an
    int, and its inverse. Checkpoint file names embed such a rendering. */
module Decimal {

  predicate IsDigits(s: string)
  {
    forall i :: 0 <= i < |s| ==> '0' <= s[i] <= '9'
  }

  function DigitChar(d: nat): (c: char)
    requires d < 10
    ensures '0' <= c <= '9' && (c == '0' <==> d == 0)
  {
    ('0' as int + d) as char
  }

  function DigitValue(c: char): (d: nat)
    requires '0' <= c <= '9'
    ensures d < 10
  {
    c as int - '0' as int
  }

  /** `f"{n}"`: the digits of n, most significant first, with a leading zero
      only for n = 0 itself. */
  function Show(n: nat): (s: string)
    ensures |s| > 0 && IsDigits(s)
    ensures s[0] == '0' <==> n == 0
    ensures n < 10 <==> |s| == 1
  {
    if n < 10 then [DigitChar(n)] else Show(n / 10) + [DigitChar(n % 10)]
  }

  /** The value of a string of decimal digits. */
  function Parse(s: string): nat
    requires IsDigits(s)
  {
    if |s| == 0 then 0 else Parse(s[..|s| - 1]) * 10 + DigitValue(s[|s| - 1])
  }

  /** Parsing a rendering gives the number back. */
  lemma {:induction false} ParseShow(n: nat)
    ensures Parse(Show(n)) == n
  {
    var s := Show(n);
    if n >= 10 {
      ParseShow(n / 10);
      assert s[..|s| - 1] == Show(n / 10);
      assert DigitValue(s[|s| - 1]) == n % 10;
    }
  }

  /** Different numbers render differently. */
  lemma {:induction false} ShowInjective(a: nat, b: nat)
    requires Show(a) == Show(b)
    ensures a == b
  {
    ParseShow(a);
    ParseShow(b);
  }
}

=== FILE: hyper.dfy ===
/** The module-level hyperparameters of train_1.py that the integer logic
    depends on. The numeric ones (learning rate, dropout, widths) only size
    floating-point layers and are not part of this model. */
module Hyper {

  /** Number of examples per batch of the data loaders. */
  const BatchSize: nat := 8

  /** Maximum context length: rows of the position table and of the causal mask. */
  const BlockSize: nat := 512

  /** A checkpoint is written whenever the iteration counter is a multiple of this. */
  const CheckpointSteps: nat := 5000

  /** Width of the token table and of the output logits. */
  const VocabSize: nat := 10002

  /** The padding token id, the last id of the vocabulary. */
  const PadId: int := 10001

  /** Cap on the number of batches per split that estimate_loss reads. */
  const EvalIters: nat := 2000

  /** Number of epochs that `train` runs. */
  const Epochs: nat := 200
}

=== FILE: mask.dfy ===
/** The causal mask of one attention head (`Head` in train_1.py): the
    lower-triangular buffer built once at construction, sliced to the active
    length, used to blank out future positions before the softmax, and the
    weighted sum of value vectors that follows. Score, value and exponential
    arithmetic are exact reals here; `exp` is any positive function. */
module CausalMask {
  import opened Tensor

  /** `torch.ones(n, n)`. */
  function Ones(n: nat): seq<seq<real>>
  {
    seq(n, i => seq(n, j => 1.0))
  }

  /** `torch.tril(a)`: keeps the entries on and below the diagonal, zeroes the rest. */
  function Tril(a: seq<seq<real>>): seq<seq<real>>
  {
    seq(|a|, i requires 0 <= i < |a| =>
      seq(|a[i]|, j requires 0 <= j < |a[i]| => if j <= i then a[i][j] else 0.0))
  }

  /** The `tril` buffer registered by the head: `tril(ones(block_size, block_size))`.
      Entry (i, j) is nonzero exactly when j <= i. */
  function MaskBuffer(blockSize: nat): (m: seq<seq<real>>)
    ensures |m| == blockSize && Rect(m, blockSize)
    ensures forall i, j :: 0 <= i < blockSize && 0 <= j < blockSize ==> (m[i][j] != 0.0 <==> j <= i)
  {
    Tril(Ones(blockSize))
  }

  /** `m[:t, :t]`. */
  function Slice(m: seq<seq<real>>, t: nat): (r: seq<seq<real>>)
    requires t <= |m| && forall i :: 0 <= i < |m| ==> t <= |m[i]|
    ensures |r| == t && Rect(r, t)
    ensures forall i, j :: 0 <= i < t && 0 <= j < t ==> r[i][j] == m[i][j]
  {
    seq(t, i requires 0 <= i < t => m[i][..t])
  }

  /** The mask as used on an active length `t` not above the block size:
      a (t, t) matrix whose entry (i, j) is nonzero exactly when j <= i. */
  function HeadMask(blockSize: nat, t: nat): (m: seq<seq<real>>)
    requires t <= blockSize
    ensures |m| == t && Rect(m, t)
    ensures forall i, j :: 0 <= i < t && 0 <= j < t ==> (m[i][j] != 0.0 <==> j <= i)
  {
    Slice(MaskBuffer(blockSize), t)
  }

  /** An attention score after masking: a real or minus infinity. */
  datatype Score = NegInf | Fin(x: real)

  /** `wei.masked_fill(mask == 0, -inf)` on one (T, T) score matrix. */
  function MaskedFill(wei: seq<seq<real>>, mask: seq<seq<real>>): (r: seq<seq<Score>>)
    requires |wei| == |mask| && forall i :: 0 <= i < |wei| ==> |wei[i]| == |mask[i]|
    ensures |r| == |wei| && forall i :: 0 <= i < |wei| ==> |r[i]| == |wei[i]|
  {
    seq(|wei|, i requires 0 <= i < |wei| =>
      seq(|wei[i]|, j requires 0 <= j < |wei[i]| =>
        if mask[i][j] == 0.0 then NegInf else Fin(wei[i][j])))
  }

  ghost predicate Positive(exp: real -> real)
  {
    forall x :: exp(x) > 0.0
  }

  /** exp of every score, with exp(-inf) = 0: zero exactly on the masked
      entries and positive elsewhere. */
  function Exps(row: seq<Score>, exp: real -> real): (e: seq<real>)
    requires Positive(exp)
    ensures |e| == |row|
    ensures forall j :: 0 <= j < |row| ==> (e[j] == 0.0 <==> row[j].NegInf?) && e[j] >= 0.0
  {
    seq(|row|, j requires 0 <= j < |row| => if row[j].NegInf? then 0.0 else exp(row[j].x))
  }

  ghost predicate HasFinite(row: seq<Score>)
  {
    exists j :: 0 <= j < |row| && row[j].Fin?
  }

  lemma {:induction false} SumNonNeg(s: seq<real>)
    requires forall j :: 0 <= j < |s| ==> s[j] >= 0.0
    ensures Sum(s) >= 0.0
  {
    if |s| > 0 {
      SumNonNeg(s[1..]);
    }
  }

  lemma {:induction false} SumPositive(s: seq<real>, k: nat)
    requires forall j :: 0 <= j < |s| ==> s[j] >= 0.0
    requires k < |s| && s[k] > 0.0
    ensures Sum(s) > 0.0
  {
    if k == 0 {
      SumNonNeg(s[1..]);
    } else {
      SumPositive(s[1..], k - 1);
    }
  }

  lemma {:induction false} SumScaled(s: seq<real>, r: seq<real>, z: real)
    requires z != 0.0 && |r| == |s|
    requires forall j :: 0 <= j < |s| ==> r[j] == s[j] / z
    ensures Sum(r) == Sum(s) / z
  {
    if |s| > 0 {
      SumScaled(s[1..], r[1..], z);
    }
  }

  /** `F.softmax` over one row: masked entries get exactly zero weight, the
      others a positive one, and the row sums to one. A row with no finite
      score (not-a-number in floating point) is outside the model. */
  function Softmax(row: seq<Score>, exp: real -> real): (p: seq<real>)
    requires Positive(exp) && HasFinite(row)
    ensures |p| == |row|
    ensures forall j :: 0 <= j < |row| ==> (p[j] == 0.0 <==> row[j].NegInf?) && p[j] >= 0.0
    ensures Sum(p) == 1.0
  {
    var e := Exps(row, exp);
    ExpsSumPositive(row, exp);
    var z := Sum(e);
    var p := seq(|row|, j requires 0 <= j < |row| => e[j] / z);
    Normalized(e, z, p);
    p
  }

  /** A row with a finite score has a positive normaliser. */
  lemma {:induction false} ExpsSumPositive(row: seq<Score>, exp: real -> real)
    requires Positive(exp) && HasFinite(row)
    ensures Sum(Exps(row, exp)) > 0.0
  {
    var k :| 0 <= k < |row| && row[k].Fin?;
    SumPositive(Exps(row, exp), k);
  }

  /** Dividing non-negative entries by their positive sum gives a row that
      sums to one and is zero exactly where the entries are. */
  lemma {:induction false} Normalized(e: seq<real>, z: real, p: seq<real>)
    requires z > 0.0 && z == Sum(e) && |p| == |e|
    requires forall j :: 0 <= j < |e| ==> e[j] >= 0.0 && p[j] == e[j] / z
    ensures Sum(p) == 1.0
    ensures forall j :: 0 <= j < |e| ==> (p[j] == 0.0 <==> e[j] == 0.0) && p[j] >= 0.0
  {
    SumScaled(e, p, z);
    assert Sum(p) == z / z;
  }

  /** Attention weights of one batch element: mask the (T, T) scores with
      `tril[:T, :T]` and take the softmax of every row. Position i gives
      zero weight to exactly the positions after it, and each row sums to one. */
  function Weights(wei: seq<seq<real>>, blockSize: nat, exp: real -> real): (w: seq<seq<real>>)
    requires Positive(exp) && |wei| <= blockSize && Rect(wei, |wei|)
    ensures |w| == |wei| && Rect(w, |wei|)
    ensures forall i, j :: 0 <= i < |wei| && 0 <= j < |wei| ==> (w[i][j] == 0.0 <==> i < j)
    ensures forall i :: 0 <= i < |wei| ==> Sum(w[i]) == 1.0
  {
    var t := |wei|;
    var masked := MaskedFill(wei, HeadMask(blockSize, t));
    seq(t, i requires 0 <= i < t =>
      assert masked[i][i].Fin?;
      Softmax(masked[i], exp))
  }

  /** The weights of a whole (B, T, T) batch: the (T, T) mask is broadcast
      over the batch dimension. */
  function HeadWeights(wei: seq<seq<seq<real>>>, t: nat, blockSize: nat, exp: real -> real): (w: seq<seq<seq<real>>>)
    requires Positive(exp) && t <= blockSize
    requires forall b :: 0 <= b < |wei| ==> |wei[b]| == t && Rect(wei[b], t)
    ensures |w| == |wei|
    ensures forall b :: 0 <= b < |wei| ==>
      && |w[b]| == t && Rect(w[b], t)
      && forall i, j :: 0 <= i < t && 0 <= j < t ==> (w[b][i][j] == 0.0 <==> i < j)
  {
    seq(|wei|, b requires 0 <= b < |wei| => Weights(wei[b], blockSize, exp))
  }

  /** Weighted sum of column c of the value vectors: one entry of `wei @ v`. */
  function WeightedSum(w: seq<real>, v: seq<seq<real>>, c: nat): real
    requires |w| == |v| && forall j :: 0 <= j < |v| ==> c < |v[j]|
  {
    if |w| == 0 then 0.0 else w[0] * v[0][c] + WeightedSum(w[1..], v[1..], c)
  }

  /** `wei @ v` for one batch element: (T, T) @ (T, hs) -> (T, hs). */
  function Aggregate(w: seq<seq<real>>, v: seq<seq<real>>, hs: nat): (out: seq<seq<real>>)
    requires Rect(w, |v|) && Rect(v, hs)
    ensures |out| == |w| && Rect(out, hs)
  {
    seq(|w|, i requires 0 <= i < |w| => seq(hs, c requires 0 <= c < hs => WeightedSum(w[i], v, c)))
  }

  /** Entries with zero weight do not contribute to a weighted sum. */
  lemma {:induction false} ZeroWeightsIgnored(w: seq<real>, v: seq<seq<real>>, v': seq<seq<real>>, c: nat, k: nat)
    requires |w| == |v| == |v'| && k <= |w|
    requires forall j :: 0 <= j < |v| ==> c < |v[j]| && c < |v'[j]|
    requires forall j :: k <= j < |w| ==> w[j] == 0.0
    requires forall j :: 0 <= j < k ==> v[j][c] == v'[j][c]
    ensures WeightedSum(w, v, c) == WeightedSum(w, v', c)
  {
    if |w| > 0 {
      ZeroWeightsIgnored(w[1..], v[1..], v'[1..], c, if k == 0 then 0 else k - 1);
    }
  }

  /** No future position is attended to: the head's output at position i is
      the same for any two value matrices that agree on positions 0..i. */
  lemma {:induction false} FutureValuesIgnored(wei: seq<seq<real>>, blockSize: nat, exp: real -> real,
                            v: seq<seq<real>>, v': seq<seq<real>>, hs: nat, i: nat)
    requires Positive(exp) && |wei| <= blockSize && Rect(wei, |wei|)
    requires |v| == |v'| == |wei| && Rect(v, hs) && Rect(v', hs)
    requires i < |wei| && v[..i + 1] == v'[..i + 1]
    ensures Aggregate(Weights(wei, blockSize, exp), v, hs)[i]
         == Aggregate(Weights(wei, blockSize, exp), v', hs)[i]
  {
    var w := Weights(wei, blockSize, exp);
    forall c | 0 <= c < hs
      ensures WeightedSum(w[i], v, c) == WeightedSum(w[i], v', c)
    {
      forall j | 0 <= j < i + 1
        ensures v[j][c] == v'[j][c]
      {
        assert v[j] == v[..i + 1][j];
      }
      ZeroWeightsIgnored(w[i], v, v', c, i + 1);
    }
  }

  /** Scores of future positions do not influence the weights: row i of the
      attention weights depends on row i of the scores only up to column i. */
  lemma {:induction false} FutureScoresIgnored(wei: seq<seq<real>>, wei': seq<seq<real>>, blockSize: nat, exp: real -> real, i: nat)
    requires Positive(exp) && |wei| <= blockSize && Rect(wei, |wei|)
    requires |wei'| == |wei| && Rect(wei', |wei|)
    requires i < |wei| && wei[i][..i + 1] == wei'[i][..i + 1]
    ensures Weights(wei, blockSize, exp)[i] == Weights(wei', blockSize, exp)[i]
  {
    var t := |wei|;
    var mask := HeadMask(blockSize, t);
    var m := MaskedFill(wei, mask);
    var m' := MaskedFill(wei', mask);
    forall j | 0 <= j < t
      ensures m[i][j] == m'[i][j]
    {
      if j <= i {
        assert wei[i][j] == wei[i][..i + 1][j];
        assert wei'[i][j] == wei'[i][..i + 1][j];
      }
    }
    assert m[i] == m'[i];
  }
}

=== FILE: model.dfy ===
/** GPTLanguageModel (train_1.py): the exact, integer-valued layer around the
    floating-point network. The network itself is an oracle: `logit(row, t, v)`
    is the score it gives to vocabulary entry v at position t of a context
    row; cross-entropy and the softmax-and-sample step are oracles as well. */
module LanguageModel {
  import opened Wrappers
  import opened Tensor
  import Hyper

  /** Embeddings, transformer blocks, final norm and output head, as one oracle. */
  type Net = (seq<int>, int, int) -> real

  /** `F.cross_entropy` on (N, C) logits and N target ids. */
  type LossFn = (seq<seq<real>>, seq<int>) -> real

  /** `softmax` followed by `torch.multinomial` on the last-position logits of
      one row; the step number and the row index stand for the random draw. */
  type Sampler = (seq<real>, int, int) -> int

  /** A model instance: the sizes of its two embedding tables and its numerics. */
  datatype Model = Model(vocabSize: nat, blockSize: nat, logit: Net, crossEntropy: LossFn)

  /** The exceptions the integer layer can raise. */
  datatype Error =
    | TokenOutOfRange      // token embedding lookup with an id outside [0, vocab_size)
    | PositionOutOfRange   // position embedding lookup with T > block_size
    | TargetShapeMismatch  // targets.view(B*T) on a tensor of another size
    | TargetOutOfRange     // cross_entropy with a class id outside [0, vocab_size)
    | EmptyContext         // logits[:, -1, :] on a zero-length time axis
    | MissingAttribute     // self.block_size read but never assigned
    | CategoryCount        // torch.multinomial on no categories or on more than 2^24

  /** Logits as returned by forward: (B, T, V) without targets, (B*T, V) with. */
  datatype Logits = ByPosition(t3: seq<seq<seq<real>>>) | Flattened(t2: seq<seq<real>>)

  datatype Output = Output(logits: Logits, loss: Option<real>)

  /** The instance train_1.py builds from its module-level constants. */
  function Train1Model(logit: Net, crossEntropy: LossFn): Model
  {
    Model(Hyper.VocabSize, Hyper.BlockSize, logit, crossEntropy)
  }

  /** Every id of the (B, T) tensor indexes the token table. */
  predicate InVocab(m: Model, x: seq<seq<int>>)
  {
    forall b, t :: 0 <= b < |x| && 0 <= t < |x[b]| ==> 0 <= x[b][t] < m.vocabSize
  }

  /** `ignore_index` of `F.cross_entropy`: a target it skips. */
  const IgnoreIndex: int := -100

  /** Every target id is a class of the logits or the ignored id. */
  predicate TargetsInRange(m: Model, y: seq<seq<int>>)
  {
    forall b, t :: 0 <= b < |y| && 0 <= t < |y[b]| ==> y[b][t] == IgnoreIndex || 0 <= y[b][t] < m.vocabSize
  }

  /** The V logits of position t of a row. */
  function LogitsRow(m: Model, row: seq<int>, t: int): (r: seq<real>)
    ensures |r| == m.vocabSize
  {
    seq(m.vocabSize, v requires 0 <= v < m.vocabSize => m.logit(row, t, v))
  }

  /** The (B, w, V) logits of a batch: row b, position t holds the logits of
      that position of that row. */
  function PositionLogits(m: Model, idx: seq<seq<int>>, w: nat): (l: seq<seq<seq<real>>>)
    requires Rect(idx, w)
    ensures |l| == |idx| && Rect(l, w)
    ensures forall b, t :: 0 <= b < |idx| && 0 <= t < w ==> l[b][t] == LogitsRow(m, idx[b], t)
  {
    seq(|idx|, b requires 0 <= b < |idx| => seq(w, t requires 0 <= t < w => LogitsRow(m, idx[b], t)))
  }

  /** Logits of shape (B, w, V), position (b, t) holding that position's row. */
  ghost predicate ShapedLogits(m: Model, idx: seq<seq<int>>, w: nat, l: seq<seq<seq<real>>>)
  {
    |l| == |idx| && Rect(l, w) &&
    forall b, t :: 0 <= b < |idx| && 0 <= t < w ==> l[b][t] == LogitsRow(m, idx[b], t)
  }

  /** Row b*w + t of flat logits holds the logits of position (b, t). */
  ghost predicate FlatRowAt(m: Model, idx: seq<seq<int>>, w: nat, l: seq<seq<real>>, b: nat, t: nat)
    requires b < |idx|
  {
    b * w + t < |l| && l[b * w + t] == LogitsRow(m, idx[b], t)
  }

  /** Logits of shape (B*w, V), row b*w + t holding position (b, t). */
  ghost predicate FlatLogits(m: Model, idx: seq<seq<int>>, w: nat, l: seq<seq<real>>)
  {
    |l| == |idx| * w &&
    forall b: nat, t: nat :: b < |idx| && t < w ==> FlatRowAt(m, idx, w, l, b, t)
  }

  lemma {:induction false} FlattenedLogitsAt(m: Model, idx: seq<seq<int>>, w: nat, l: seq<seq<seq<real>>>, b: nat, t: nat)
    requires ShapedLogits(m, idx, w, l)
    requires b < |idx| && t < w
    ensures FlatRowAt(m, idx, w, Flatten(l), b, t)
  {
    FlattenAt(l, w, b, t);
  }

  /** Flattening a (B, w, V) logits tensor puts position (b, t) at row b*w + t. */
  lemma {:induction false} FlattenedLogits(m: Model, idx: seq<seq<int>>, w: nat, l: seq<seq<seq<real>>>)
    requires ShapedLogits(m, idx, w, l)
    ensures FlatLogits(m, idx, w, Flatten(l))
  {
    FlattenLength(l, w);
    forall b: nat, t: nat | b < |idx| && t < w
      ensures FlatRowAt(m, idx, w, Flatten(l), b, t)
    {
      FlattenedLogitsAt(m, idx, w, l, b, t);
    }
  }

  /** `forward(idx, targets)` on a (B, T) tensor `idx`. The lookups fail on an
      id outside the token table or on more positions than the position table
      has rows; with targets, logits (B,T,V) become (B*T,V) row-major, targets
      become (B*T), cross-entropy rejects a target that is no class id, and
      the loss is their cross-entropy; without, the loss is None and the
      logits keep their shape. */
  function Forward(m: Model, idx: seq<seq<int>>, t: nat, targets: Option<seq<seq<int>>>): (r: Result<Output, Error>)
    requires Rect(idx, t)
    requires targets.Some? ==> IsMatrix(targets.value)
    ensures r.Ok? <==>
      && InVocab(m, idx)
      && t <= m.blockSize
      && (targets.Some? ==> Numel(targets.value) == |idx| * t && TargetsInRange(m, targets.value))
    ensures r.Ok? && targets.None? ==>
      && r.value.loss.None?
      && r.value.logits.ByPosition?
      && ShapedLogits(m, idx, t, r.value.logits.t3)
    ensures r.Ok? && targets.Some? ==>
      && r.value.logits.Flattened?
      && FlatLogits(m, idx, t, r.value.logits.t2)
      && r.value.loss == Some(m.crossEntropy(r.value.logits.t2, Flatten(targets.value)))
  {
    if !InVocab(m, idx) then Err(TokenOutOfRange)
    else if t > m.blockSize then Err(PositionOutOfRange)
    else
      var logits := PositionLogits(m, idx, t);
      if targets.None? then Ok(Output(ByPosition(logits), None))
      else if Numel(targets.value) != |idx| * t then Err(TargetShapeMismatch)
      else if !TargetsInRange(m, targets.value) then Err(TargetOutOfRange)
      else
        FlattenedLogits(m, idx, t, logits);
        var flat := Flatten(logits);
        Ok(Output(Flattened(flat), Some(m.crossEntropy(flat, Flatten(targets.value)))))
  }

  /** `row[-n:]`: the last min(|row|, n) tokens. As in Python, `row[-0:]` is
      the whole row. */
  function Crop(row: seq<int>, n: nat): (r: seq<int>)
    ensures |r| == ContextWidth(|row|, n)
    ensures r == row[|row| - |r|..]
  {
    if n == 0 || |row| <= n then row else row[|row| - n..]
  }

  /** `idx[:, -n:]`. */
  function CropBatch(x: seq<seq<int>>, n: nat): (r: seq<seq<int>>)
    ensures |r| == |x| && forall b :: 0 <= b < |x| ==> r[b] == Crop(x[b], n)
  {
    seq(|x|, b requires 0 <= b < |x| => Crop(x[b], n))
  }

  /** The context bound: with a positive block size, the cropped context of a
      (B, len) batch is a (B, min(len, block_size)) tensor, so its positions
      always fit the position table and forward on it can only fail on an id
      outside the vocabulary. */
  lemma {:induction false} CroppedContextFits(m: Model, x: seq<seq<int>>, len: nat)
    requires Rect(x, len) && m.blockSize > 0
    ensures Rect(CropBatch(x, m.blockSize), Min(len, m.blockSize))
    ensures Forward(m, CropBatch(x, m.blockSize), Min(len, m.blockSize), None).Err? ==>
      Forward(m, CropBatch(x, m.blockSize), Min(len, m.blockSize), None).error == TokenOutOfRange
  {
    assert Rect(CropBatch(x, m.blockSize), Min(len, m.blockSize));
  }

  /** `logits[:, -1, :]` on a (B, t, V) tensor: an index error when the time
      axis is empty, whatever B is. */
  function LastStep(l: seq<seq<seq<real>>>, t: nat): (r: Result<seq<seq<real>>, Error>)
    requires Rect(l, t)
    ensures r.Ok? <==> t > 0
    ensures r.Ok? ==> |r.value| == |l| && forall b :: 0 <= b < |l| ==> r.value[b] == l[b][t - 1]
  {
    if t == 0 then Err(EmptyContext)
    else Ok(seq(|l|, b requires 0 <= b < |l| => l[b][t - 1]))
  }

  /** The largest number of categories `torch.multinomial` accepts: 2^24. */
  const MaxCategories: nat := 0x100_0000

  /** `torch.multinomial(probs, num_samples=1)` on (B, V) probabilities draws
      one sample without replacement, so it needs at least one category and
      refuses more than 2^24 of them, whatever B is. */
  predicate CanSample(m: Model)
  {
    0 < m.vocabSize <= MaxCategories
  }

  /** The sampler returns an index into the distribution it is given. */
  ghost predicate SamplesInRange(pick: Sampler)
  {
    forall p, s, b :: |p| > 0 ==> 0 <= pick(p, s, b) < |p|
  }

  /** The token appended to row b at step s, given the row so far: sampled from
      the last-position logits of the row cropped to the block size. */
  function NextToken(m: Model, pick: Sampler, prefix: seq<int>, s: int, b: int): (r: int)
    ensures SamplesInRange(pick) && m.vocabSize > 0 ==> 0 <= r < m.vocabSize
  {
    var ctx := Crop(prefix, m.blockSize);
    pick(LogitsRow(m, ctx, |ctx| - 1), s, b)
  }

  /** One step of generation can run on a (B, len) batch: the rows are
      nonempty, the block size is positive, every id of the cropped context
      is in the vocabulary and the vocabulary is a size multinomial accepts. */
  predicate StepCanRun(m: Model, cur: seq<seq<int>>, len: nat)
  {
    len > 0 && m.blockSize > 0 && InVocab(m, CropBatch(cur, m.blockSize)) && CanSample(m)
  }

  /** One iteration of the generate loop: crop, forward without targets, take
      the last position, sample one token per row and append it. It fails
      exactly when the step cannot run; otherwise every row grows by its
      sampled token, an id in the vocabulary. */
  method Step(m: Model, pick: Sampler, cur: seq<seq<int>>, len: nat, step: nat)
    returns (r: Result<seq<seq<int>>, Error>)
    requires Rect(cur, len)
    requires SamplesInRange(pick)
    ensures r.Ok? <==> StepCanRun(m, cur, len)
    ensures r.Ok? ==> |r.value| == |cur| && forall b :: 0 <= b < |cur| ==>
      && r.value[b] == cur[b] + [NextToken(m, pick, cur[b], step, b)]
      && 0 <= NextToken(m, pick, cur[b], step, b) < m.vocabSize
  {
    var ctx := CropBatch(cur, m.blockSize);
    var cw := ContextWidth(len, m.blockSize);
    StepRunsIff(m, cur, len);
    var out := Forward(m, ctx, cw, None);
    if out.Err? {
      return Err(out.error);
    }
    var last := LastStep(out.value.logits.t3, cw);
    if last.Err? {
      return Err(last.error);
    }
    if !CanSample(m) {
      return Err(CategoryCount);
    }
    SampledFromLast(m, pick, cur, len, step, out.value.logits.t3, last.value);
    var next := seq(|cur|, b requires 0 <= b < |cur| => pick(last.value[b], step, b));
    r := Ok(seq(|cur|, b requires 0 <= b < |cur| => cur[b] + [next[b]]));
  }

  /** The width of a context cropped to n tokens from rows of length len. */
  function ContextWidth(len: nat, n: nat): nat
  {
    if n == 0 then len else Min(len, n)
  }

  /** Forward on the cropped context, the read of its last position and the
      draw all succeed exactly when the step can run. */
  lemma {:induction false} StepRunsIff(m: Model, cur: seq<seq<int>>, len: nat)
    requires Rect(cur, len)
    ensures Rect(CropBatch(cur, m.blockSize), ContextWidth(len, m.blockSize))
    ensures Forward(m, CropBatch(cur, m.blockSize), ContextWidth(len, m.blockSize), None).Ok?
         && ContextWidth(len, m.blockSize) > 0 && CanSample(m)
        <==> StepCanRun(m, cur, len)
  {
    assert Rect(CropBatch(cur, m.blockSize), ContextWidth(len, m.blockSize));
  }

  /** Sampling from the last position of the logits of the cropped context
      gives each row's next token, an id in the vocabulary. */
  lemma {:induction false} SampledFromLast(m: Model, pick: Sampler, cur: seq<seq<int>>, len: nat, step: nat,
                                           l: seq<seq<seq<real>>>, last: seq<seq<real>>)
    requires Rect(cur, len) && SamplesInRange(pick)
    requires InVocab(m, CropBatch(cur, m.blockSize))
    requires ContextWidth(len, m.blockSize) > 0
    requires ShapedLogits(m, CropBatch(cur, m.blockSize), ContextWidth(len, m.blockSize), l)
    requires |last| == |cur|
    requires forall b :: 0 <= b < |cur| ==> last[b] == l[b][ContextWidth(len, m.blockSize) - 1]
    ensures forall b :: 0 <= b < |cur| ==>
      && pick(last[b], step, b) == NextToken(m, pick, cur[b], step, b)
      && 0 <= NextToken(m, pick, cur[b], step, b) < m.vocabSize
  {
    var ctx := CropBatch(cur, m.blockSize);
    forall b | 0 <= b < |cur|
      ensures pick(last[b], step, b) == NextToken(m, pick, cur[b], step, b)
      ensures 0 <= NextToken(m, pick, cur[b], step, b) < m.vocabSize
    {
      assert |ctx[b]| == ContextWidth(len, m.blockSize);
      assert 0 <= ctx[b][0] < m.vocabSize;
      assert last[b] == LogitsRow(m, ctx[b], |ctx[b]| - 1);
    }
  }

  /** First position of a t-token row that the first context window covers
      (0 when n = 0, since then the window is the whole row). */
  function WindowStart(t: nat, n: nat): nat
  {
    t - ContextWidth(t, n)
  }

  lemma {:induction false} WindowInVocab(m: Model, x: seq<seq<int>>, len: nat, lo: nat)
    requires Rect(x, len) && m.blockSize > 0 && lo <= WindowStart(len, m.blockSize)
    requires forall b, j :: 0 <= b < |x| && lo <= j < len ==> 0 <= x[b][j] < m.vocabSize
    ensures InVocab(m, CropBatch(x, m.blockSize))
  {
    var c := CropBatch(x, m.blockSize);
    forall b, t | 0 <= b < |c| && 0 <= t < |c[b]|
      ensures 0 <= c[b][t] < m.vocabSize
    {
      assert c[b][t] == x[b][WindowStart(len, m.blockSize) + t];
    }
  }

  /** `cur` is `idx` (rows of length t0) after k generation steps. */
  ghost predicate Generated(m: Model, pick: Sampler, idx: seq<seq<int>>, t0: nat, cur: seq<seq<int>>, k: nat)
  {
    && |cur| == |idx| && Rect(cur, t0 + k)
    && (forall b :: 0 <= b < |cur| ==> cur[b][..t0] == idx[b])
    && (forall b, j :: 0 <= b < |cur| && t0 <= j < t0 + k ==>
          && 0 <= cur[b][j] < m.vocabSize
          && cur[b][j] == NextToken(m, pick, cur[b][..j], j - t0, b))
  }

  /** Ids at positions lo..hi-1 of every row are in the vocabulary. */
  ghost predicate IdsInVocab(m: Model, x: seq<seq<int>>, lo: nat, hi: nat)
  {
    forall b, j :: 0 <= b < |x| && lo <= j < hi && j < |x[b]| ==> 0 <= x[b][j] < m.vocabSize
  }

  /** Appending each row's next token extends a generation by one step and
      keeps the ids of the window in the vocabulary. */
  lemma {:induction false} GeneratedGrows(m: Model, pick: Sampler, idx: seq<seq<int>>, t0: nat, cur: seq<seq<int>>, k: nat,
                       grown: seq<seq<int>>, lo: nat)
    requires Generated(m, pick, idx, t0, cur, k)
    requires |grown| == |cur|
    requires forall b :: 0 <= b < |cur| ==>
      && grown[b] == cur[b] + [NextToken(m, pick, cur[b], k, b)]
      && 0 <= NextToken(m, pick, cur[b], k, b) < m.vocabSize
    ensures Generated(m, pick, idx, t0, grown, k + 1)
    ensures IdsInVocab(m, cur, lo, t0 + k) ==> IdsInVocab(m, grown, lo, t0 + k + 1)
  {
    forall b | 0 <= b < |grown|
      ensures |grown[b]| == t0 + (k + 1) && grown[b][..t0] == idx[b]
    {
      assert grown[b][..t0] == cur[b][..t0];
    }
    forall b, j | 0 <= b < |grown| && t0 <= j < t0 + (k + 1)
      ensures 0 <= grown[b][j] < m.vocabSize
      ensures grown[b][j] == NextToken(m, pick, grown[b][..j], j - t0, b)
    {
      AppendedAt(cur[b], NextToken(m, pick, cur[b], k, b), j);
    }
    if IdsInVocab(m, cur, lo, t0 + k) {
      forall b, j | 0 <= b < |grown| && lo <= j < t0 + k + 1 && j < |grown[b]|
        ensures 0 <= grown[b][j] < m.vocabSize
      {
        AppendedAt(cur[b], NextToken(m, pick, cur[b], k, b), j);
      }
    }
  }

  /** Appending x to a row keeps every earlier position and prefix. */
  lemma {:induction false} AppendedAt(row: seq<int>, x: int, j: nat)
    requires j <= |row|
    ensures (row + [x])[..j] == row[..j]
    ensures j < |row| ==> (row + [x])[j] == row[j]
    ensures j == |row| ==> (row + [x])[j] == x && (row + [x])[..j] == row
  {
  }

  /** `generate(idx, max_new_tokens)` on a (B, t0) tensor: max_new_tokens
      steps. Generation succeeds exactly when there is nothing to generate or
      the first step can run; then every row grows by max_new_tokens, keeps
      the input as a prefix, and every new token is an in-vocabulary id
      sampled from the last min(len, block_size) tokens before it. */
  method Generate(m: Model, pick: Sampler, idx: seq<seq<int>>, t0: nat, maxNewTokens: nat)
    returns (r: Result<seq<seq<int>>, Error>)
    requires Rect(idx, t0)
    requires SamplesInRange(pick)
    ensures r.Ok? <==> maxNewTokens == 0 || StepCanRun(m, idx, t0)
    ensures maxNewTokens == 0 ==> r == Ok(idx)
    ensures r.Ok? ==> |r.value| == |idx| && Rect(r.value, t0 + maxNewTokens)
    ensures r.Ok? ==> forall b :: 0 <= b < |idx| ==> r.value[b][..t0] == idx[b]
    ensures r.Ok? ==> forall b, j :: 0 <= b < |idx| && t0 <= j < t0 + maxNewTokens ==>
      && 0 <= r.value[b][j] < m.vocabSize
      && r.value[b][j] == NextToken(m, pick, r.value[b][..j], j - t0, b)
  {
    var lo := WindowStart(t0, m.blockSize);
    var cur := idx;
    var step: nat := 0;
    assert forall b :: 0 <= b < |idx| ==> idx[b][..t0] == idx[b];
    while step < maxNewTokens
      invariant step <= maxNewTokens
      invariant step == 0 ==> cur == idx
      invariant step > 0 ==> StepCanRun(m, idx, t0)
      invariant Generated(m, pick, idx, t0, cur, step)
      invariant step > 0 ==> IdsInVocab(m, cur, lo, t0 + step)
    {
      if step > 0 {
        WindowInVocab(m, cur, t0 + step, lo);
      }
      var next := Step(m, pick, cur, t0 + step, step);
      if next.Err? {
        return Err(next.error);
      }
      if step == 0 {
        FirstWindowInVocab(m, idx, t0);
      }
      GeneratedGrows(m, pick, idx, t0, cur, step, next.value, lo);
      cur := next.value;
      step := step + 1;
    }
    r := Ok(cur);
  }

  /** The first window of a batch that can generate is in the vocabulary. */
  lemma {:induction false} FirstWindowInVocab(m: Model, idx: seq<seq<int>>, t0: nat)
    requires Rect(idx, t0) && StepCanRun(m, idx, t0)
    ensures IdsInVocab(m, idx, WindowStart(t0, m.blockSize), t0)
  {
    var c := CropBatch(idx, m.blockSize);
    forall b, j | 0 <= b < |idx| && WindowStart(t0, m.blockSize) <= j < t0
      ensures 0 <= idx[b][j] < m.vocabSize
    {
      assert idx[b][j] == c[b][j - WindowStart(t0, m.blockSize)];
    }
  }
}

=== FILE: tensor.dfy ===
/** Shapes of the integer and real tensors that flow through the model,
    represented as nested sequences in row-major (batch-first) order. */
module Tensor {

  /** Every row of `x` has length `w`: `x` is a (|x|, w) tensor. */
  predicate Rect<T>(x: seq<seq<T>>, w: nat)
  {
    forall b :: 0 <= b < |x| ==> |x[b]| == w
  }

  /** The smaller of two sizes. */
  function Min(a: nat, b: nat): nat
  {
    if a <= b then a else b
  }

  /** The second dimension of a batch-first tensor (0 for an empty batch). */
  function Width<T>(x: seq<seq<T>>): nat
  {
    if |x| == 0 then 0 else |x[0]|
  }

  /** A nested sequence that is a proper two-dimensional tensor. */
  predicate IsMatrix<T>(x: seq<seq<T>>)
  {
    Rect(x, Width(x))
  }

  /** Number of elements of a two-dimensional tensor. */
  function Numel<T>(x: seq<seq<T>>): nat
  {
    |x| * Width(x)
  }

  /** Row-major flattening of the first two dimensions: `view(B*T)` on a
      (B,T) tensor, `view(B*T, C)` on a (B,T,C) tensor. */
  function Flatten<T>(x: seq<seq<T>>): seq<T>
  {
    if |x| == 0 then [] else x[0] + Flatten(x[1..])
  }

  lemma {:induction false} FlattenLength<T>(x: seq<seq<T>>, w: nat)
    requires Rect(x, w)
    ensures |Flatten(x)| == |x| * w
  {
    if |x| > 0 {
      FlattenLength(x[1..], w);
    }
  }

  /** Element (b, t) lands at position b*w + t of the flattened tensor. */
  lemma {:induction false} FlattenAt<T>(x: seq<seq<T>>, w: nat, b: nat, t: nat)
    requires Rect(x, w)
    requires b < |x| && t < w
    ensures |Flatten(x)| == |x| * w
    ensures b * w + t < |Flatten(x)| && Flatten(x)[b * w + t] == x[b][t]
  {
    FlattenLength(x, w);
    if b > 0 {
      FlattenAt(x[1..], w, b - 1, t);
      assert (b - 1) * w + t + w == b * w + t;
    }
  }

  /** The inverse view: cut a flat sequence into `rows` rows of width `w`. */
  function Unflatten<T>(s: seq<T>, w: nat, rows: nat): (r: seq<seq<T>>)
    requires |s| == rows * w
    ensures |r| == rows && Rect(r, w)
  {
    if rows == 0 then []
    else
      assert |s[w..]| == (rows - 1) * w;
      [s[..w]] + Unflatten(s[w..], w, rows - 1)
  }

  /** Row b, column t of the inverse view is element b*w + t. */
  lemma {:induction false} UnflattenAt<T>(s: seq<T>, w: nat, rows: nat, b: nat, t: nat)
    requires |s| == rows * w
    requires b < rows && t < w
    ensures b * w + t < |s| && Unflatten(s, w, rows)[b][t] == s[b * w + t]
  {
    assert |s[w..]| == (rows - 1) * w;
    if b > 0 {
      UnflattenAt(s[w..], w, rows - 1, b - 1, t);
      assert (b - 1) * w + t + w == b * w + t;
    }
  }

  /** Viewing a flattened (B,T) tensor back as (B,T) gives the tensor back. */
  lemma {:induction false} UnflattenFlatten<T>(x: seq<seq<T>>, w: nat)
    requires Rect(x, w)
    ensures |Flatten(x)| == |x| * w
    ensures Unflatten(Flatten(x), w, |x|) == x
  {
    FlattenLength(x, w);
    var r := Unflatten(Flatten(x), w, |x|);
    forall b | 0 <= b < |x|
      ensures r[b] == x[b]
    {
      forall t | 0 <= t < w
        ensures r[b][t] == x[b][t]
      {
        FlattenAt(x, w, b, t);
        UnflattenAt(Flatten(x), w, |x|, b, t);
      }
    }
  }

  /** Flattening undoes the inverse view. */
  lemma {:induction false} FlattenUnflatten<T>(s: seq<T>, w: nat, rows: nat)
    requires |s| == rows * w
    ensures Flatten(Unflatten(s, w, rows)) == s
  {
    if rows > 0 {
      PeelRow(rows, w);
      assert |s[w..]| == (rows - 1) * w;
      var u := Unflatten(s, w, rows);
      var rest := Unflatten(s[w..], w, rows - 1);
      assert u == [s[..w]] + rest;
      assert u[0] == s[..w] && u[1..] == rest;
      FlattenUnflatten(s[w..], w, rows - 1);
      assert Flatten(u) == s[..w] + s[w..];
      assert s == s[..w] + s[w..];
    }
  }

  lemma {:induction false} PeelRow(rows: nat, w: nat)
    requires rows > 0
    ensures rows * w == (rows - 1) * w + w
  {
  }

  function Sum(s: seq<real>): real
  {
    if |s| == 0 then 0.0 else s[0] + Sum(s[1..])
  }

  lemma {:induction false} SumAppend(a: seq<real>, b: seq<real>)
    ensures Sum(a + b) == Sum(a) + Sum(b)
  {
    if |a| > 0 {
      SumAppend(a[1..], b);
      assert (a + b)[1..] == a[1..] + b;
    } else {
      assert a + b == b;
    }
  }
}

=== FILE: training.dfy ===
/** The training control of train_1.py: `estimate_loss`, `train_epoch` and
    `train`. Forward passes, back-propagation and the optimizer step are
    floating-point work and are abstracted away; what is modelled is the
    per-epoch batch counter, which iterations evaluate and checkpoint, the
    checkpoint file names, the eval/train mode toggle and the shared loss
    buffer of `estimate_loss`. */
module Training {
  import opened Tensor
  import Decimal
  import Hyper

  // ---------------------------------------------------------------------
  // Triggers

  /** `x % y` on Python floats, for y > 0: x - y * floor(x / y), exact. */
  function FloatMod(x: real, y: real): (r: real)
    requires y > 0.0
    ensures 0.0 <= r < y
  {
    FloorScaled(x, y);
    x - y * (x / y).Floor as real
  }

  /** y * floor(x / y) lies in (x - y, x]. */
  lemma {:induction false} FloorScaled(x: real, y: real)
    requires y > 0.0
    ensures 0.0 <= x - y * (x / y).Floor as real < y
  {
    var q := x / y;
    var f := q.Floor as real;
    MulDiv(x, y);
    MulMono(y, f, q);
    MulStrict(y, q, f + 1.0);
    MulSucc(y, f);
    assert y * q == x;
    assert y * q < y * (f + 1.0);
    assert x < y * (f + 1.0);
    Between(x, y, y * f, y * (f + 1.0));
  }

  // Real products one step at a time, so the bound above stays linear.

  lemma {:induction false} Between(x: real, y: real, p: real, s: real)
    requires y > 0.0 && p <= x && x < s && s == p + y
    ensures 0.0 <= x - p < y
  {
  }

  lemma {:induction false} MulMono(y: real, a: real, b: real)
    requires y > 0.0 && a <= b
    ensures y * a <= y * b
  {
  }

  lemma {:induction false} MulStrict(y: real, a: real, b: real)
    requires y > 0.0 && a < b
    ensures y * a < y * b
  {
  }

  lemma {:induction false} MulSucc(y: real, a: real)
    ensures y * (a + 1.0) == y * a + y
  {
  }

  lemma {:induction false} MulDiv(x: real, y: real)
    requires y > 0.0
    ensures y * (x / y) == x
  {
  }

  /** The evaluation trigger `iter % (TOTAL_ITERATION / 2) == 0`, where `/`
      is true division. It is only reached with at least one batch. */
  predicate EvalDue(iter: nat, total: nat)
  {
    total > 0 && FloatMod(iter as real, total as real / 2.0) == 0.0
  }

  lemma {:induction false} FloorOfQuotient(a: nat, n: nat)
    requires n > 0
    ensures (a as real / n as real).Floor == a / n
  {
    var q, r := a / n, a % n;
    assert a == n * q + r;
    assert a as real / n as real == q as real + r as real / n as real;
    assert 0.0 <= r as real / n as real < 1.0;
  }

  /** The float remainder is half the integer remainder of 2·iter by the
      number of batches. */
  lemma {:induction false} EvalRemainder(iter: nat, total: nat)
    requires total > 0
    ensures FloatMod(iter as real, total as real / 2.0) == ((2 * iter) % total) as real / 2.0
  {
    var x, y := iter as real, total as real / 2.0;
    assert x / y == (2 * iter) as real / total as real;
    FloorOfQuotient(2 * iter, total);
    var q := (2 * iter) / total;
    assert 2 * iter == total * q + (2 * iter) % total;
    assert y * q as real == (total * q) as real / 2.0;
  }

  /** Evaluation fires exactly when 2·iter is a multiple of the number of
      batches per epoch. */
  lemma {:induction false} EvalDueIff(iter: nat, total: nat)
    ensures EvalDue(iter, total) <==> total > 0 && (2 * iter) % total == 0
  {
    if total > 0 {
      EvalRemainder(iter, total);
    }
  }

  /** Within an epoch of `total` batches, evaluation fires after the last
      batch and, when `total` is even, after the middle one, and at no other
      batch. */
  lemma {:induction false} EvalFiresAtHalfAndEnd(iter: nat, total: nat)
    requires 1 <= iter <= total
    ensures EvalDue(iter, total) <==> iter == total || (total % 2 == 0 && iter == total / 2)
  {
    EvalDueIff(iter, total);
    MultipleUpToTwice(2 * iter, total);
  }

  /** Between 0 and 2n, the multiples of n are 0, n and 2n. */
  lemma {:induction false} MultipleUpToTwice(a: int, n: int)
    requires n > 0 && 0 <= a <= 2 * n
    ensures a % n == 0 <==> a == 0 || a == n || a == 2 * n
  {
    var q, r := a / n, a % n;
    assert a == n * q + r && 0 <= r < n;
    QuotientBounds(n, q);
    assert 0 <= q <= 2;
    if q == 0 {
      assert a == r;
    } else if q == 1 {
      assert a == n + r;
    } else {
      assert a == 2 * n + r;
    }
  }

  lemma {:induction false} QuotientBounds(n: int, q: int)
    ensures n > 0 && q >= 3 ==> n * q >= 3 * n
    ensures n > 0 && q < 0 ==> n * q < 0
  {
    if n > 0 && q >= 3 {
      assert n * q == 3 * n + n * (q - 3);
    }
  }

  /** `f'./checkpoints/chkpt_{iter+1}.pkl'`. */
  function CheckpointPath(iter: nat): (p: string)
    ensures |p| > 24 && p[..20] == "./checkpoints/chkpt_" && p[|p| - 4..] == ".pkl"
    ensures Decimal.IsDigits(p[20..|p| - 4]) && Decimal.Parse(p[20..|p| - 4]) == iter + 1
  {
    var digits := Decimal.Show(iter + 1);
    Decimal.ParseShow(iter + 1);
    var p := "./checkpoints/chkpt_" + digits + ".pkl";
    assert p[20..|p| - 4] == digits;
    p
  }

  /** Different iterations write different checkpoint files. */
  lemma {:induction false} CheckpointPathInjective(a: nat, b: nat)
    requires CheckpointPath(a) == CheckpointPath(b)
    ensures a == b
  {
    var pa, pb := CheckpointPath(a), CheckpointPath(b);
    var prefix := "./checkpoints/chkpt_";
    assert Decimal.Show(a + 1) == pa[|prefix|..|pa| - 4];
    assert Decimal.Show(b + 1) == pb[|prefix|..|pb| - 4];
    Decimal.ShowInjective(a + 1, b + 1);
  }

  // ---------------------------------------------------------------------
  // estimate_loss

  /** The batches a capped loop reads: at most `cap` of them. */
  function Capped(xs: seq<real>, cap: nat): (r: seq<real>)
    ensures |r| == Min(|xs|, cap) && r == xs[..|r|]
  {
    xs[..Min(|xs|, cap)]
  }

  /** A buffer whose first |xs| slots were overwritten by `xs`. */
  function Overwrite(buf: seq<real>, xs: seq<real>): (r: seq<real>)
    requires |xs| <= |buf|
    ensures |r| == |buf|
    ensures forall k :: 0 <= k < |buf| ==> r[k] == if k < |xs| then xs[k] else buf[k]
  {
    xs + buf[|xs|..]
  }

  function Zeros(n: nat): (z: seq<real>)
    ensures |z| == n && Sum(z) == 0.0
    ensures forall k :: 0 <= k < n ==> z[k] == 0.0
  {
    if n == 0 then [] else [0.0] + Zeros(n - 1)
  }

  /** The loss of every batch each loader would yield, in order. */
  datatype EvalData = EvalData(trainLosses: seq<real>, valLosses: seq<real>)

  /** The two means `estimate_loss` returns. */
  datatype Estimate = Estimate(train: real, val: real)

  /** The shared buffer after the train split has been read. */
  function AfterTrain(cap: nat, d: EvalData): (r: seq<real>)
    ensures |r| == cap
    ensures forall k :: 0 <= k < cap ==> r[k] == if k < |d.trainLosses| then d.trainLosses[k] else 0.0
  {
    Overwrite(Zeros(cap), Capped(d.trainLosses, cap))
  }

  /** The shared buffer after the val split has been read on top of it. */
  function AfterVal(cap: nat, d: EvalData): (r: seq<real>)
    ensures |r| == cap
    ensures forall k :: 0 <= k < cap ==>
      r[k] == if k < |d.valLosses| then d.valLosses[k] else if k < |d.trainLosses| then d.trainLosses[k] else 0.0
  {
    Overwrite(AfterTrain(cap, d), Capped(d.valLosses, cap))
  }

  /** What `estimate_loss(model, cap)` returns: the mean of all `cap` slots of
      the shared buffer after each split. */
  function EstimateOf(cap: nat, d: EvalData): Estimate
    requires cap > 0
  {
    Estimate(Sum(AfterTrain(cap, d)) / cap as real, Sum(AfterVal(cap, d)) / cap as real)
  }

  /** The train estimate is the sum of the losses of the (at most cap) batches
      read, divided by cap: unused slots count as zero losses. */
  lemma {:induction false} TrainEstimate(cap: nat, d: EvalData)
    requires cap > 0
    ensures EstimateOf(cap, d).train == Sum(Capped(d.trainLosses, cap)) / cap as real
  {
    var xs := Capped(d.trainLosses, cap);
    var z := Zeros(cap);
    assert AfterTrain(cap, d) == xs + z[|xs|..];
    SumAppend(xs, z[|xs|..]);
    SumAppend(z[..|xs|], z[|xs|..]);
    assert z == z[..|xs|] + z[|xs|..];
    ZerosPrefix(cap, |xs|);
  }

  lemma {:induction false} ZerosPrefix(n: nat, k: nat)
    requires k <= n
    ensures Sum(Zeros(n)[..k]) == 0.0
  {
    if k > 0 {
      ZerosPrefix(n - 1, k - 1);
      assert Zeros(n)[..k][1..] == Zeros(n - 1)[..k - 1];
    }
  }

  /** The val estimate reuses the buffer: slots the val split did not reach
      still hold train losses (or zeros), and they are averaged in. */
  lemma {:induction false} ValEstimateReusesBuffer(cap: nat, d: EvalData)
    requires cap > 0
    ensures var v := Capped(d.valLosses, cap);
      EstimateOf(cap, d).val == (Sum(v) + Sum(AfterTrain(cap, d)[|v|..])) / cap as real
  {
    var v := Capped(d.valLosses, cap);
    assert AfterVal(cap, d) == v + AfterTrain(cap, d)[|v|..];
    SumAppend(v, AfterTrain(cap, d)[|v|..]);
  }

  /** In particular, with fewer val batches than the cap and enough train
      batches, the val estimate mixes in the train losses of the later slots. */
  lemma {:induction false} ValEstimateWithShortVal(cap: nat, d: EvalData)
    requires cap > 0 && |d.valLosses| < cap <= |d.trainLosses|
    ensures EstimateOf(cap, d).val
         == (Sum(d.valLosses) + Sum(d.trainLosses[|d.valLosses|..cap])) / cap as real
  {
    ValEstimateReusesBuffer(cap, d);
    var t := AfterTrain(cap, d);
    assert t[|d.valLosses|..] == d.trainLosses[|d.valLosses|..cap];
    assert Capped(d.valLosses, cap) == d.valLosses;
  }

  /** Only the first `cap` batches of each loader matter. */
  lemma {:induction false} EstimateReadsAtMostCap(cap: nat, d: EvalData)
    requires cap > 0
    ensures EstimateOf(cap, d) == EstimateOf(cap, EvalData(Capped(d.trainLosses, cap), Capped(d.valLosses, cap)))
  {
    var d' := EvalData(Capped(d.trainLosses, cap), Capped(d.valLosses, cap));
    assert Capped(d'.trainLosses, cap) == Capped(d.trainLosses, cap);
    assert Capped(d'.valLosses, cap) == Capped(d.valLosses, cap);
  }

  // ---------------------------------------------------------------------
  // The event log of training

  datatype Mode = Training | Evaluating

  /** What a batch leaves behind: the optimizer step, an evaluation, a
      checkpoint file. `iter` is the counter after its increment. */
  datatype Event =
    | Stepped(iter: nat)
    | Evaluated(iter: nat, estimate: Estimate)
    | Saved(iter: nat, path: string)

  /** The per-batch losses the loaders yield when evaluation runs after batch
      `iter` of epoch `epoch` with the model in the given mode (they depend on
      the parameters at that time, and on the mode through the dropout layers,
      which are active only in training mode). */
  type Evaluator = (nat, nat, Mode) -> EvalData

  /** Batches per epoch (`TOTAL_ITERATION = len(train_dataloader)`), the
      checkpoint interval and the evaluation cap. */
  datatype Schedule = Schedule(total: nat, steps: nat, evalIters: nat)
  {
    predicate Valid()
    {
      steps > 0 && evalIters > 0
    }
  }

  /** The schedule of train_1.py for a training set of n examples: the
      loader yields batches of BatchSize examples and a last, shorter one for
      the remainder, so TOTAL_ITERATION is n / BatchSize rounded up. */
  function Train1Schedule(n: nat): (s: Schedule)
    ensures s.Valid() && s.steps == Hyper.CheckpointSteps && s.evalIters == Hyper.EvalIters
    ensures s.total * Hyper.BatchSize >= n
    ensures s.total > 0 ==> (s.total - 1) * Hyper.BatchSize < n
  {
    Schedule((n + Hyper.BatchSize - 1) / Hyper.BatchSize, Hyper.CheckpointSteps, Hyper.EvalIters)
  }

  /** train_1.py as written, by training-set size: up to 39992 examples
      (fewer than 5000 batches per epoch) it never writes a checkpoint; above
      that, its 200 epochs write the same checkpoint file more than once. */
  lemma {:induction false} Train1CheckpointsAsWritten(n: nat, data: Evaluator)
    ensures var log := RunAsWritten(Train1Schedule(n), data, Hyper.Epochs);
      n <= (Hyper.CheckpointSteps - 1) * Hyper.BatchSize ==> forall e :: e in log ==> !e.Saved?
    ensures var log := RunAsWritten(Train1Schedule(n), data, Hyper.Epochs);
      n > (Hyper.CheckpointSteps - 1) * Hyper.BatchSize ==>
        exists a, b :: 0 <= a < b < |log| && log[a] == log[b] && log[a].Saved?
  {
    var s := Train1Schedule(n);
    if n <= (Hyper.CheckpointSteps - 1) * Hyper.BatchSize {
      assert s.total < s.steps;
      forall e | e in RunAsWritten(s, data, Hyper.Epochs)
        ensures !e.Saved?
      {
        if e.Saved? {
          AsWrittenNoCheckpointWhenEpochShort(s, data, Hyper.Epochs, e);
        }
      }
    } else {
      assert s.steps <= s.total;
      AsWrittenRepeatsCheckpoint(s, data, Hyper.Epochs);
    }
  }

  /** The events of the batch that takes the counter to `i`. */
  function BatchEvents(s: Schedule, data: Evaluator, epoch: nat, i: nat): seq<Event>
    requires s.Valid()
  {
    [Stepped(i)]
    + (if EvalDue(i, s.total) then [Evaluated(i, EstimateOf(s.evalIters, data(epoch, i, Evaluating)))] else [])
    + (if i % s.steps == 0 then [Saved(i, CheckpointPath(i))] else [])
  }

  /** The events of n batches of an epoch whose counter starts at `start`. */
  function EpochEvents(s: Schedule, data: Evaluator, epoch: nat, start: nat, n: nat): seq<Event>
    requires s.Valid()
  {
    if n == 0 then [] else EpochEvents(s, data, epoch, start, n - 1) + BatchEvents(s, data, epoch, start + n)
  }

  /** Each iteration of an epoch records its optimizer step. */
  lemma {:induction false} EpochSteppedIff(s: Schedule, data: Evaluator, epoch: nat, start: nat, n: nat, i: nat)
    requires s.Valid()
    ensures Stepped(i) in EpochEvents(s, data, epoch, start, n) <==> start < i <= start + n
  {
    if n > 0 {
      EpochSteppedIff(s, data, epoch, start, n - 1, i);
    }
  }

  /** An epoch evaluates exactly at its iterations where the trigger fires,
      recording the estimate of that moment. */
  lemma {:induction false} EpochEvaluatedIff(s: Schedule, data: Evaluator, epoch: nat, start: nat, n: nat, i: nat, est: Estimate)
    requires s.Valid()
    ensures Evaluated(i, est) in EpochEvents(s, data, epoch, start, n) <==>
      start < i <= start + n && EvalDue(i, s.total) && est == EstimateOf(s.evalIters, data(epoch, i, Evaluating))
  {
    if n > 0 {
      EpochEvaluatedIff(s, data, epoch, start, n - 1, i, est);
    }
  }

  /** An epoch checkpoints exactly at its iterations that are multiples of
      the interval, each to the file named after iteration + 1. */
  lemma {:induction false} EpochSavedIff(s: Schedule, data: Evaluator, epoch: nat, start: nat, n: nat, i: nat, path: string)
    requires s.Valid()
    ensures Saved(i, path) in EpochEvents(s, data, epoch, start, n) <==>
      start < i <= start + n && i % s.steps == 0 && path == CheckpointPath(i)
  {
    if n > 0 {
      EpochSavedIff(s, data, epoch, start, n - 1, i, path);
      BatchSavedIff(s, data, epoch, start + n, i, path);
      var prev, last := EpochEvents(s, data, epoch, start, n - 1), BatchEvents(s, data, epoch, start + n);
      assert EpochEvents(s, data, epoch, start, n) == prev + last;
      assert Saved(i, path) in prev + last <==> Saved(i, path) in prev || Saved(i, path) in last;
    }
  }

  /** A batch checkpoints only at its own counter value, when that is a
      multiple of the interval. */
  lemma {:induction false} BatchSavedIff(s: Schedule, data: Evaluator, epoch: nat, j: nat, i: nat, path: string)
    requires s.Valid()
    ensures Saved(i, path) in BatchEvents(s, data, epoch, j) <==> i == j && j % s.steps == 0 && path == CheckpointPath(j)
  {
    var ev: seq<Event> := if EvalDue(j, s.total) then [Evaluated(j, EstimateOf(s.evalIters, data(epoch, j, Evaluating)))] else [];
    var sv: seq<Event> := if j % s.steps == 0 then [Saved(j, CheckpointPath(j))] else [];
    assert BatchEvents(s, data, epoch, j) == [Stepped(j)] + ev + sv;
    assert Saved(i, path) !in [Stepped(j)] + ev;
  }

  /** Every event of an epoch carries a counter value of that epoch. */
  lemma {:induction false} EpochEventsWithin(s: Schedule, data: Evaluator, epoch: nat, start: nat, n: nat)
    requires s.Valid()
    ensures forall e :: e in EpochEvents(s, data, epoch, start, n) ==> start < e.iter <= start + n
  {
    if n > 0 {
      EpochEventsWithin(s, data, epoch, start, n - 1);
    }
  }

  /** Checkpoints in a log come in strictly increasing iteration order. */
  ghost predicate SavesIncreasing(log: seq<Event>)
  {
    forall a, b :: 0 <= a < b < |log| && log[a].Saved? && log[b].Saved? ==> log[a].iter < log[b].iter
  }

  lemma {:induction false} SavesIncreasingAppend(l1: seq<Event>, l2: seq<Event>, bound: nat)
    requires SavesIncreasing(l1) && SavesIncreasing(l2)
    requires forall e :: e in l1 ==> e.iter <= bound
    requires forall e :: e in l2 ==> bound < e.iter
    ensures SavesIncreasing(l1 + l2)
  {
    var l := l1 + l2;
    forall a, b | 0 <= a < b < |l| && l[a].Saved? && l[b].Saved?
      ensures l[a].iter < l[b].iter
    {
      if b < |l1| {
        assert l[a] == l1[a] && l[b] == l1[b];
      } else if a >= |l1| {
        assert l[a] == l2[a - |l1|] && l[b] == l2[b - |l1|];
      } else {
        assert l[a] == l1[a] && l[b] == l2[b - |l1|];
        assert l1[a] in l1 && l2[b - |l1|] in l2;
      }
    }
  }

  lemma {:induction false} EpochSavesIncreasing(s: Schedule, data: Evaluator, epoch: nat, start: nat, n: nat)
    requires s.Valid()
    ensures SavesIncreasing(EpochEvents(s, data, epoch, start, n))
  {
    if n > 0 {
      EpochSavesIncreasing(s, data, epoch, start, n - 1);
      EpochEventsWithin(s, data, epoch, start, n - 1);
      EpochSavesStep(s, data, epoch, start, n);
    }
  }

  /** One more batch keeps the checkpoints of an epoch increasing. */
  lemma {:induction false} EpochSavesStep(s: Schedule, data: Evaluator, epoch: nat, start: nat, n: nat)
    requires s.Valid() && n > 0
    requires SavesIncreasing(EpochEvents(s, data, epoch, start, n - 1))
    requires forall e :: e in EpochEvents(s, data, epoch, start, n - 1) ==> e.iter <= start + n - 1
    ensures SavesIncreasing(EpochEvents(s, data, epoch, start, n))
  {
    BatchSavesOnce(s, data, epoch, start + n);
    SavesIncreasingAppend(EpochEvents(s, data, epoch, start, n - 1), BatchEvents(s, data, epoch, start + n), start + n - 1);
  }

  /** A batch's events all carry its counter value, and only the last can be
      a checkpoint. */
  lemma {:induction false} BatchSavesOnce(s: Schedule, data: Evaluator, epoch: nat, i: nat)
    requires s.Valid()
    ensures forall e :: e in BatchEvents(s, data, epoch, i) ==> e.iter == i
    ensures SavesIncreasing(BatchEvents(s, data, epoch, i))
  {
    var ev: seq<Event> := if EvalDue(i, s.total) then [Evaluated(i, EstimateOf(s.evalIters, data(epoch, i, Evaluating)))] else [];
    var sv: seq<Event> := if i % s.steps == 0 then [Saved(i, CheckpointPath(i))] else [];
    assert BatchEvents(s, data, epoch, i) == [Stepped(i)] + ev + sv;
    SaveLast([Stepped(i)] + ev, sv, i);
  }

  /** A log of events at one counter value whose only checkpoint, if any,
      comes last has increasing checkpoints. */
  lemma {:induction false} SaveLast(pre: seq<Event>, last: seq<Event>, i: nat)
    requires forall e :: e in pre ==> !e.Saved? && e.iter == i
    requires |last| <= 1 && forall e :: e in last ==> e.iter == i
    ensures forall e :: e in pre + last ==> e.iter == i
    ensures SavesIncreasing(pre + last)
  {
    var log := pre + last;
    assert forall a :: 0 <= a < |log| - 1 ==> log[a] == pre[a] && !log[a].Saved?;
  }

  /** The log of `train` as written: every epoch's counter starts at 0. */
  function RunAsWritten(s: Schedule, data: Evaluator, epochs: nat): seq<Event>
    requires s.Valid()
  {
    if epochs == 0 then [] else RunAsWritten(s, data, epochs - 1) + EpochEvents(s, data, epochs - 1, 0, s.total)
  }

  /** The counter value a carried run starts epoch e with. */
  function CarriedStart(s: Schedule, e: nat): nat
  {
    if e == 0 then 0 else CarriedStart(s, e - 1) + s.total
  }

  /** Epoch e of a carried run starts after e·total batches. */
  lemma {:induction false} CarriedStartIs(s: Schedule, e: nat)
    ensures CarriedStart(s, e) == e * s.total
  {
    if e > 0 {
      CarriedStartIs(s, e - 1);
      assert (e - 1) * s.total + s.total == e * s.total;
    }
  }

  /** The log of `train` with the counter carried across epochs: epoch e
      covers iterations e·total + 1 .. (e+1)·total. */
  function RunCarried(s: Schedule, data: Evaluator, epochs: nat): seq<Event>
    requires s.Valid()
  {
    if epochs == 0 then [] else RunCarried(s, data, epochs - 1) + EpochEvents(s, data, epochs - 1, CarriedStart(s, epochs - 1), s.total)
  }

  lemma {:induction false} ModOfSmaller(a: nat, n: nat)
    requires a < n
    ensures a % n == a
  {
  }

  /** As written, an epoch with fewer batches than the checkpoint interval
      means no checkpoint is ever written, however many epochs run. */
  lemma {:induction false} AsWrittenNoCheckpointWhenEpochShort(s: Schedule, data: Evaluator, epochs: nat, e: Event)
    requires s.Valid() && s.total < s.steps && e.Saved?
    ensures e !in RunAsWritten(s, data, epochs)
  {
    if epochs > 0 {
      AsWrittenNoCheckpointWhenEpochShort(s, data, epochs - 1, e);
      EpochSavedIff(s, data, epochs - 1, 0, s.total, e.iter, e.path);
      if 0 < e.iter <= s.total {
        ModOfSmaller(e.iter, s.steps);
      }
    }
  }

  /** As written, with at least two epochs of at least `steps` batches, the
      same checkpoint file is written twice. */
  lemma {:induction false} AsWrittenRepeatsCheckpoint(s: Schedule, data: Evaluator, epochs: nat)
    requires s.Valid() && s.steps <= s.total && epochs >= 2
    ensures var log := RunAsWritten(s, data, epochs);
      exists a, b :: 0 <= a < b < |log| && log[a] == log[b] && log[a].Saved?
  {
    var e := Saved(s.steps, CheckpointPath(s.steps));
    FirstCheckpointInEpoch(s, data, 0);
    FirstCheckpointInEpoch(s, data, 1);
    RunAsWrittenTwo(s, data);
    RunAsWrittenPrefix(s, data, 2, epochs);
    DuplicateInPrefix(RunAsWritten(s, data, epochs), EpochEvents(s, data, 0, 0, s.total), EpochEvents(s, data, 1, 0, s.total), e);
  }

  /** An event of both parts of a log's prefix occurs twice in the log. */
  lemma {:induction false} DuplicateInPrefix(log: seq<Event>, x: seq<Event>, y: seq<Event>, e: Event)
    requires x + y <= log && e in x && e in y
    ensures exists a, b :: 0 <= a < b < |log| && log[a] == e && log[b] == e
  {
    var a :| 0 <= a < |x| && x[a] == e;
    var b :| 0 <= b < |y| && y[b] == e;
    assert log[a] == (x + y)[a];
    assert log[|x| + b] == (x + y)[|x| + b];
  }

  /** As written, every epoch of at least `steps` batches writes the
      checkpoint of iteration `steps`. */
  lemma {:induction false} FirstCheckpointInEpoch(s: Schedule, data: Evaluator, epoch: nat)
    requires s.Valid() && s.steps <= s.total
    ensures Saved(s.steps, CheckpointPath(s.steps)) in EpochEvents(s, data, epoch, 0, s.total)
  {
    assert s.steps % s.steps == 0;
    EpochSavedIff(s, data, epoch, 0, s.total, s.steps, CheckpointPath(s.steps));
  }

  lemma {:induction false} RunAsWrittenTwo(s: Schedule, data: Evaluator)
    requires s.Valid()
    ensures RunAsWritten(s, data, 2) == EpochEvents(s, data, 0, 0, s.total) + EpochEvents(s, data, 1, 0, s.total)
  {
    var e0 := EpochEvents(s, data, 0, 0, s.total);
    assert RunAsWritten(s, data, 1) == [] + e0;
    assert [] + e0 == e0;
  }

  lemma {:induction false} RunAsWrittenPrefix(s: Schedule, data: Evaluator, k: nat, n: nat)
    requires s.Valid() && k <= n
    ensures RunAsWritten(s, data, k) <= RunAsWritten(s, data, n)
  {
    if k < n {
      RunAsWrittenPrefix(s, data, k, n - 1);
    }
  }

  /** With the counter carried, checkpoints are written exactly at the
      positive multiples of the interval up to the last batch, each to the
      file named after its iteration. */
  lemma {:induction false} CarriedSavesIff(s: Schedule, data: Evaluator, epochs: nat, e: Event)
    requires s.Valid() && e.Saved?
    ensures e in RunCarried(s, data, epochs) <==>
      0 < e.iter <= epochs * s.total && e.iter % s.steps == 0 && e.path == CheckpointPath(e.iter)
  {
    CarriedSavesUpTo(s, data, epochs, e);
    CarriedStartIs(s, epochs);
  }

  lemma {:induction false} CarriedSavesUpTo(s: Schedule, data: Evaluator, epochs: nat, e: Event)
    requires s.Valid() && e.Saved?
    ensures e in RunCarried(s, data, epochs) <==>
      0 < e.iter <= CarriedStart(s, epochs) && e.iter % s.steps == 0 && e.path == CheckpointPath(e.iter)
  {
    if epochs > 0 {
      CarriedSavesUpTo(s, data, epochs - 1, e);
      EpochSavedIff(s, data, epochs - 1, CarriedStart(s, epochs - 1), s.total, e.iter, e.path);
    }
  }

  /** With the counter carried, no two checkpoints of a run share a file. */
  lemma {:induction false} CarriedPathsDistinct(s: Schedule, data: Evaluator, epochs: nat)
    requires s.Valid()
    ensures var log := RunCarried(s, data, epochs);
      forall a, b :: 0 <= a < b < |log| && log[a].Saved? && log[b].Saved? ==> log[a].path != log[b].path
  {
    CarriedSavesIncreasing(s, data, epochs);
    var log := RunCarried(s, data, epochs);
    forall a, b | 0 <= a < b < |log| && log[a].Saved? && log[b].Saved?
      ensures log[a].path != log[b].path
    {
      CarriedSavesIff(s, data, epochs, log[a]);
      CarriedSavesIff(s, data, epochs, log[b]);
      if log[a].path == log[b].path {
        CheckpointPathInjective(log[a].iter, log[b].iter);
      }
    }
  }

  lemma {:induction false} CarriedSavesIncreasing(s: Schedule, data: Evaluator, epochs: nat)
    requires s.Valid()
    ensures SavesIncreasing(RunCarried(s, data, epochs))
    ensures forall e :: e in RunCarried(s, data, epochs) ==> e.iter <= CarriedStart(s, epochs)
  {
    if epochs > 0 {
      var k := epochs - 1;
      var lo := CarriedStart(s, k);
      CarriedSavesIncreasing(s, data, k);
      EpochSavesIncreasing(s, data, k, lo, s.total);
      EpochEventsWithin(s, data, k, lo, s.total);
      SavesIncreasingAppend(RunCarried(s, data, k), EpochEvents(s, data, k, lo, s.total), lo);
    }
  }

  /** Appending one more batch to an epoch's log extends it by one batch. */
  lemma {:induction false} EpochLogStep(s: Schedule, data: Evaluator, epoch: nat, start: nat, n: nat, log0: seq<Event>, log: seq<Event>)
    requires s.Valid() && log == log0 + EpochEvents(s, data, epoch, start, n)
    ensures log + BatchEvents(s, data, epoch, start + n + 1) == log0 + EpochEvents(s, data, epoch, start, n + 1)
  {
    EventsAppend(log0, EpochEvents(s, data, epoch, start, n), BatchEvents(s, data, epoch, start + n + 1));
  }

  lemma {:induction false} EventsAppend(a: seq<Event>, b: seq<Event>, c: seq<Event>)
    ensures a + b + c == a + (b + c)
  {
  }

  // ---------------------------------------------------------------------
  // The trainer

  /** Fill the first slots of the buffer with the losses of the batches a
      loader yields, stopping once the counter reaches the buffer length. */
  method FillLosses(losses: array<real>, batchLosses: seq<real>)
    modifies losses
    ensures losses[..] == Overwrite(old(losses[..]), Capped(batchLosses, losses.Length))
  {
    ghost var buf := losses[..];
    var k := 0;
    while k < |batchLosses|
      invariant 0 <= k <= |batchLosses| && k <= losses.Length
      invariant forall j :: 0 <= j < losses.Length ==> losses[j] == if j < k then batchLosses[j] else buf[j]
    {
      if k == losses.Length {
        break;
      }
      losses[k] := batchLosses[k];
      k := k + 1;
    }
    ghost var xs := Capped(batchLosses, losses.Length);
    assert |xs| == k;
    assert losses[..] == Overwrite(buf, xs);
  }

  /** The training driver: the model's mode, the batch counter of
      `train_epoch` and the log of what training has done. */
  class Trainer {
    const schedule: Schedule
    var mode: Mode
    var iter: nat
    var log: seq<Event>

    ghost predicate Valid()
      reads this
    {
      schedule.Valid() && mode == Training
    }

    /** A freshly built model is in training mode; nothing has happened yet. */
    constructor (schedule: Schedule)
      requires schedule.Valid()
      ensures Valid() && this.schedule == schedule && iter == 0 && log == []
    {
      this.schedule := schedule;
      mode := Training;
      iter := 0;
      log := [];
    }

    /** `estimate_loss(model, eval_iters)`: switch to eval mode, read each
      split into one shared zeroed buffer of eval_iters slots, take the mean
      of the whole buffer after each split, switch back to train mode. The
      losses read are those of the model in eval mode. */
    method EstimateLoss(loaderLosses: Mode -> EvalData) returns (est: Estimate)
      requires Valid()
      modifies this
      ensures Valid() && iter == old(iter) && log == old(log)
      ensures est == EstimateOf(schedule.evalIters, loaderLosses(Evaluating))
    {
      mode := Evaluating;
      var d := loaderLosses(mode);
      var cap := schedule.evalIters;
      var losses := new real[cap](_ => 0.0);
      assert losses[..] == Zeros(cap);
      FillLosses(losses, d.trainLosses);
      var trainMean := Sum(losses[..]) / cap as real;
      FillLosses(losses, d.valLosses);
      var valMean := Sum(losses[..]) / cap as real;
      mode := Training;
      est := Estimate(trainMean, valMean);
    }

    /** One batch of `train_epoch`: the optimizer step (abstracted), the
      counter increment, then evaluation and checkpointing on their
      triggers. */
    method RunBatch(epoch: nat, data: Evaluator)
      requires Valid()
      modifies this
      ensures Valid() && iter == old(iter) + 1
      ensures log == old(log) + BatchEvents(schedule, data, epoch, iter)
    {
      iter := iter + 1;
      var batch := [Stepped(iter)];
      if EvalDue(iter, schedule.total) {
        var i := iter;
        var est := EstimateLoss(m => data(epoch, i, m));
        batch := batch + [Evaluated(iter, est)];
      }
      if iter % schedule.steps == 0 {
        batch := batch + [Saved(iter, CheckpointPath(iter))];
      }
      log := log + batch;
    }

    /** `train_epoch(epoch, iterIn)`: the counter starts at 0 in epoch 0 and
      at `iterIn` otherwise, and rises by one per batch. */
    method TrainEpoch(epoch: nat, iterIn: nat, data: Evaluator)
      requires Valid()
      modifies this
      ensures Valid()
      ensures var start := if epoch == 0 then 0 else iterIn;
        iter == start + schedule.total && log == old(log) + EpochEvents(schedule, data, epoch, start, schedule.total)
    {
      iter := if epoch == 0 then 0 else iterIn;
      ghost var start := iter;
      ghost var log0 := log;
      var n := 0;
      while n < schedule.total
        invariant Valid()
        invariant 0 <= n <= schedule.total && iter == start + n
        invariant log == log0 + EpochEvents(schedule, data, epoch, start, n)
      {
        ghost var before := log;
        RunBatch(epoch, data);
        EpochLogStep(schedule, data, epoch, start, n, log0, before);
        n := n + 1;
      }
    }

    /** `train(model)` as written: 200 epochs, each called with iter = 0. */
    method Train(data: Evaluator)
      requires Valid()
      modifies this
      ensures Valid()
      ensures log == old(log) + RunAsWritten(schedule, data, Hyper.Epochs)
    {
      var e := 0;
      while e < Hyper.Epochs
        invariant Valid() && 0 <= e <= Hyper.Epochs
        invariant log == old(log) + RunAsWritten(schedule, data, e)
      {
        TrainEpoch(e, 0, data);
        e := e + 1;
      }
    }

    /** `train(model)` with the counter carried from one epoch to the next. */
    method TrainCarried(data: Evaluator)
      requires Valid()
      modifies this
      ensures Valid()
      ensures log == old(log) + RunCarried(schedule, data, Hyper.Epochs)
      ensures iter == Hyper.Epochs * schedule.total
    {
      iter := 0;
      var e := 0;
      while e < Hyper.Epochs
        invariant Valid() && 0 <= e <= Hyper.Epochs
        invariant iter == CarriedStart(schedule, e)
        invariant log == old(log) + RunCarried(schedule, data, e)
      {
        TrainEpoch(e, iter, data);
        e := e + 1;
      }
      CarriedStartIs(schedule, Hyper.Epochs);
    }
  }
}

=== FILE: transformer.dfy ===
/** GPTLanguageModel of transformer/transformer.py: the same model with its
    sizes passed to the constructor. The constructor sizes the position table
    with `block_size` but never assigns `self.block_size`, which `generate`
    reads to crop its context. */
module Transformer {
  import opened Wrappers
  import opened Tensor
  import LM = LanguageModel

  /** A constructed model, and whether it holds a `block_size` attribute. */
  datatype Gpt = Gpt(model: LM.Model, storesBlockSize: bool)

  /** `__init__` as written: block_size sizes the position table only. */
  function ConstructAsWritten(blockSize: nat, vocabSize: nat, logit: LM.Net, crossEntropy: LM.LossFn): (g: Gpt)
    ensures !g.storesBlockSize
    ensures g.model.blockSize == blockSize && g.model.vocabSize == vocabSize
  {
    Gpt(LM.Model(vocabSize, blockSize, logit, crossEntropy), false)
  }

  /** `__init__` that also keeps `self.block_size = block_size`, so the crop
      in generate uses the size of the position table. */
  function Construct(blockSize: nat, vocabSize: nat, logit: LM.Net, crossEntropy: LM.LossFn): (g: Gpt)
    ensures g.storesBlockSize
    ensures g.model.blockSize == blockSize && g.model.vocabSize == vocabSize
  {
    Gpt(LM.Model(vocabSize, blockSize, logit, crossEntropy), true)
  }

  /** `forward(idx, targets)` on a (B, T) tensor: positions 0..T-1 index a
      table of block_size rows and ids index a table of vocab_size rows; with
      targets, the (B, T, vocab_size) logits come back viewed as
      (B*T, vocab_size) in row-major order together with their cross-entropy
      against the flattened targets, without, as they are and with no loss. */
  function Forward(g: Gpt, idx: seq<seq<int>>, t: nat, targets: Option<seq<seq<int>>>): (r: Result<LM.Output, LM.Error>)
    requires Rect(idx, t)
    requires targets.Some? ==> IsMatrix(targets.value)
    ensures r.Ok? <==>
      && LM.InVocab(g.model, idx)
      && t <= g.model.blockSize
      && (targets.Some? ==> Numel(targets.value) == |idx| * t && LM.TargetsInRange(g.model, targets.value))
    ensures r.Ok? && targets.None? ==>
      && r.value.loss.None?
      && r.value.logits.ByPosition?
      && LM.ShapedLogits(g.model, idx, t, r.value.logits.t3)
    ensures r.Ok? && targets.Some? ==>
      && r.value.logits.Flattened?
      && LM.FlatLogits(g.model, idx, t, r.value.logits.t2)
      && r.value.loss == Some(g.model.crossEntropy(r.value.logits.t2, Flatten(targets.value)))
  {
    LM.Forward(g.model, idx, t, targets)
  }

  /** `generate(idx, max_new_tokens)` on a (B, t0) tensor. With no new tokens
      the input comes back unchanged. Otherwise the first iteration reads
      `self.block_size`: a model without that attribute fails there; a model
      with it generates as LanguageModel.Generate does, crop included. */
  method Generate(g: Gpt, pick: LM.Sampler, idx: seq<seq<int>>, t0: nat, maxNewTokens: nat)
    returns (r: Result<seq<seq<int>>, LM.Error>)
    requires Rect(idx, t0)
    requires LM.SamplesInRange(pick)
    ensures maxNewTokens == 0 ==> r == Ok(idx)
    ensures maxNewTokens > 0 && !g.storesBlockSize ==> r == Err(LM.MissingAttribute)
    ensures g.storesBlockSize ==> (r.Ok? <==> maxNewTokens == 0 || LM.StepCanRun(g.model, idx, t0))
    ensures r.Ok? ==> |r.value| == |idx| && Rect(r.value, t0 + maxNewTokens)
    ensures r.Ok? ==> forall b :: 0 <= b < |idx| ==> r.value[b][..t0] == idx[b]
    ensures r.Ok? ==> forall b, j :: 0 <= b < |idx| && t0 <= j < t0 + maxNewTokens ==>
      && 0 <= r.value[b][j] < g.model.vocabSize
      && r.value[b][j] == LM.NextToken(g.model, pick, r.value[b][..j], j - t0, b)
  {
    if maxNewTokens > 0 && !g.storesBlockSize {
      return Err(LM.MissingAttribute);
    }
    r := LM.Generate(g.model, pick, idx, t0, maxNewTokens);
  }

  /** The constructor as written leaves generate unusable: one new token from
      any batch, any sizes and any sampler raises the missing-attribute error. */
  method AsWrittenGenerateFails(blockSize: nat, vocabSize: nat, logit: LM.Net, crossEntropy: LM.LossFn,
                                pick: LM.Sampler, idx: seq<seq<int>>, t0: nat)
    returns (r: Result<seq<seq<int>>, LM.Error>)
    requires Rect(idx, t0)
    requires LM.SamplesInRange(pick)
    ensures r == Err(LM.MissingAttribute)
  {
    var g := ConstructAsWritten(blockSize, vocabSize, logit, crossEntropy);
    r := Generate(g, pick, idx, t0, 1);
  }

  /** With block_size stored, one new token from a nonempty in-vocabulary
      context, over a vocabulary multinomial accepts, succeeds and extends every row by one in-vocabulary token. */
  method ConstructedGenerateExtends(blockSize: nat, vocabSize: nat, logit: LM.Net, crossEntropy: LM.LossFn,
                                    pick: LM.Sampler, idx: seq<seq<int>>, t0: nat)
    returns (r: Result<seq<seq<int>>, LM.Error>)
    requires Rect(idx, t0) && t0 > 0 && blockSize > 0 && 0 < vocabSize <= LM.MaxCategories
    requires forall b, t :: 0 <= b < |idx| && 0 <= t < t0 ==> 0 <= idx[b][t] < vocabSize
    requires LM.SamplesInRange(pick)
    ensures r.Ok? && |r.value| == |idx|
    ensures forall b :: 0 <= b < |idx| ==>
      && |r.value[b]| == t0 + 1
      && r.value[b][..t0] == idx[b]
      && 0 <= r.value[b][t0] < vocabSize
  {
    var g := Construct(blockSize, vocabSize, logit, crossEntropy);
    assert LM.StepCanRun(g.model, idx, t0) by {
      var c := LM.CropBatch(idx, blockSize);
      forall b, t | 0 <= b < |c| && 0 <= t < |c[b]|
        ensures 0 <= c[b][t] < vocabSize
      {
        assert c[b][t] == idx[b][t0 - |c[b]| + t];
      }
    }
    r := Generate(g, pick, idx, t0, 1);
  }
}

=== FILE: wrappers.dfy ===
/** Option and Result, used for the places where the Python code returns
    None or raises an exception. */
module Wrappers {

  datatype Option<+T> = None | Some(value: T)

  datatype Result<+T, +E> = Ok(value: T) | Err(error: E)
}
